=== FILE: README.md ===
# Palisade: the RESP request decoder, the reply encoders and the connection loop

Palisade is a small Go proxy that speaks the Redis wire protocol (RESP). It sits
in front of Redis Sentinel and adds token authentication. This project models
its core in Dafny:

- **The request decoder** (`RedisParser`, `parser.go`). It has two layers.
  - `Frames` is a pure decoder over the whole byte stream a connection will
    deliver.
  - `Parser` is the buffered decoder itself. A growable buffer is read through
    `io.ReadAtLeast`, with a chunking oracle choosing how many bytes each read
    returns. Its `ReadCommand` is proved to give `Frames.Decode` of the stream
    on the multibulk path, whatever the chunking. The inline path exists twice:
    as written (`ReadCommandAsWritten`) and as evidently intended
    (`ReadCommand`); see "Findings".
  - `Decimal` models `readNumber`'s uint64 accumulation, which wraps modulo
    2^64, and its int64 conversion exactly.
  - `Protocol` holds the constants and the error values. Only `Expect Number`,
    `Expect Newline` and `Expect TypeChar` are protocol errors.
- **The reply encoders** (`Send*` in `examples/palisade-sharding-proxy/parser.go`).
  - `Encoder` gives the exact bytes each encoder writes.
  - `RoundTrip` connects the encoders to the decoder. A non-nil array of present
    bulks decodes back to itself. The encoder's null bulk and null array do not:
    the decoder expects one more CR LF after each.
- **The connection loop** (`handleConnection`, identical in `main.go` and
  `examples/palisade-sharding-proxy/palisadeCommands.go`).
  - `Session.Step` is one iteration. Its inputs are the decoded request and an
    oracle: whether the name is in the handler table, what the handler writes
    and returns, and whether the connection takes writes.
  - `Session.Run` folds `Step` over a connection.
- **The in-memory handlers.**
  - `Handlers.AuthConnection`, the same in both servers.
  - The mock `GET`/`SET` store (`MockStore`).
  - The mock pod registry behind `SENTINEL` (`SentinelCommands`).
  - `SentinelSet` (`Constellation`).
  - `ADDSENTINEL`/`KNOWNSENTINELS` (`ShardingCommands`).
  - `Servers` wires each proxy's handler table into the loop.

Go strings and byte slices are `seq<byte>`. A nil slice and an empty one differ
only where the code tells them apart: a request argument slot is
`Arg = Null | Bulk(data)`, and an array reply's argument is an `Option`.

Where the code behaves unexpectedly, the model follows the code:

- A missing AUTH handler is answered with `AUTH Command not supported` and is
  not counted as a failed attempt.
- A successful AUTH does not reset the failed-attempt counter. After
  authorization, AUTH goes through normal dispatch. A bad token then ends the
  connection with no reply, and a good one is accepted with no reply.
- An unknown command on an authorized connection is answered with an error and
  then ends the connection.
- The round trip holds only for present elements. A null element written by the
  encoder makes the decoder fail with `Expect Newline`, or swallow the next CR LF.
- A protocol error reply that cannot be written ends the connection.
- The sharding proxy's `init` adds no token (the line that would is commented
  out, `examples/palisade-sharding-proxy/main.go:51`). Its `serve` then accepts
  the `authtoken` flag's value before it listens
  (`examples/palisade-sharding-proxy/main.go:64-67, 87-89`): `secretpass1`
  unless the flag or `$PALISADE_AUTH` says otherwise. Tokens are a parameter of
  the model, so any such table can be expressed.

## Model

| member | source | states |
|---|---|---|
| Parser.ReadAtLeast | parser.go:79 | `io.ReadAtLeast`: succeeds exactly when at least `min` bytes remain; then it reads between `min` and the free space and the stream is split without loss; otherwise every remaining byte is handed over and the read fails |
| Parser.NewParser | parser.go:64-66 | a new parser has both cursors at 0 and an initial buffer of 1024 bytes |
| Parser.RequestSpace | parser.go:69-76 | afterwards `req` bytes fit after `writeIndex`; the old buffer contents are a prefix of the new buffer and the added space is zeroed; the cursors stay put; the buffer is untouched when the space was already there |
| Parser.ReadSome | parser.go:77-85 | one read of at least `min` bytes; succeeds exactly when the stream still holds `min` bytes; on success `writeIndex` advances by at least `min` and nothing read is lost or reordered; on failure the buffer gains only the connection's last bytes and zeroed space; on success the free space past the new `writeIndex` holds only bytes that were free before, or zeros; `parsePosition` never moves |
| Parser.RequireNBytes | parser.go:88-97 | succeeds exactly when buffered plus unread bytes reach `num`; then at least `num` unconsumed bytes are buffered; `parsePosition` does not move |
| Parser.Reset | parser.go:226-229 | both cursors back to 0 with the buffer and the connection kept |
| Parser.ReadNumber | parser.go:98-142 | the buffered scan gives exactly the pure `readNumber` reading of the stream (sign, wrapped digit run, errors), whatever the chunking |
| Parser.ScanDigits | parser.go:114-132 | the outer read loop consumes the maximal digit run; it fails with a stream error exactly when the stream ends inside the run |
| Parser.ScanBuffered | parser.go:118-126 | the inner loop consumes buffered digits while keeping the accumulator equal to the digits' value modulo 2^64 |
| Parser.DiscardNewLine | parser.go:143-152 | agrees with the pure reading: advances by exactly 2 when the next two bytes are CR LF, `Expect Newline` otherwise, a stream error when they are missing |
| Parser.ParseElement | parser.go:173-203 | one loop iteration decodes exactly the pure element at the parse position |
| Parser.ParseHeader | parser.go:173-183 | the `$` check (`Expect TypeChar`) and the length agree with the pure header reading |
| Parser.ParseBody | parser.go:184-203 | the CR LF after the length, the body and the trailing CR LF agree with the pure reading |
| Parser.ParseBulkBody | parser.go:187-200 | `-1` gives a nil slot, `0` an empty one, `1..65536` that many bytes, anything else `Invalid bulk size` |
| Parser.ReadBody | parser.go:192-197 | a body of `0 < plen <= 65536` bytes is exactly the next `plen` bytes of the stream, or a stream error when fewer remain |
| Parser.ParseBinary | parser.go:153-206 | the multibulk path returns `Decode(s)` for the whole stream, independent of chunking, and on success stops right after the frame |
| Parser.ParseCount | parser.go:154-162 | the element count and its CR LF agree with the pure array header reading |
| Parser.ParseArrayBody | parser.go:163-205 | `-1` consumes one more CR LF and gives the nil command; below `-1` or above 20 gives `TooManyArg`; otherwise exactly the pure decoding of the elements |
| Parser.ParseArgs | parser.go:171-205 | the element loop decodes `n` elements exactly as the pure decoder does, stopping at the first error |
| Parser.ParseTelnet | parser.go:207-224 | the inline path as evidently intended: the command is the first line of the stream, up to the byte before its line feed, split on single spaces; a stream error exactly when the stream holds no line feed and the line was not too long; `LineTooLong` only after more than 1024 bytes were read |
| Parser.ScanLine | parser.go:208-221 | the corrected inline path's search loop: it searches only the bytes read for this command, and finds the first line feed of the stream, or reports why none was found |
| Parser.ParseTelnetAsWritten | parser.go:207-224 | the inline path as written: the line feed is searched for in the whole buffer; a line feed left over from an earlier command answers at once, with no read; with no line feed left past `writeIndex`, the command is the stream's first line; it fails with a stream error only when the connection runs dry with no line feed in the stream or anywhere in the buffer, and with `LineTooLong` only after more than 1024 bytes were read |
| Parser.ScanStale | parser.go:208-221 | the as-written search loop: on success the buffer holds a line feed past its first byte; a buffer that held one on entry is returned untouched; no line feed past `writeIndex` on entry means none there on exit |
| Parser.StaleNewline | parser.go:210 | a concrete stream on which the two inline paths disagree |
| Parser.ReadCommandAsWritten | parser.go:231-244 | `ReadCommand` as written: one read, then the multibulk path on `*` (answer `Decode(s)`) or the as-written inline path, whose command is the whole buffer up to the byte before its first line feed, split on spaces, and which fails only as `ParseTelnetAsWritten` does; when the buffer holds no line feed on entry, the command is the stream's first line; both cursors end at 0; an empty stream is a stream error |
| Parser.ReadCommand | parser.go:231-244 | `ReadCommand` as evidently intended (with the corrected inline path): one read, then the multibulk path on `*` (answer `Decode(s)`) or the inline path (the first line of the stream); the cursors are reset afterwards, so bytes read past the command are dropped; an empty stream is a stream error |
| Frames.NewLineAt | parser.go:143-152 | pure `discardNewLine`: success exactly on CR LF, with `Expect Newline` versus a stream error by availability |
| Frames.DigitRunEnd | parser.go:116-132 | the end of the maximal digit run: everything before it is a digit, and the byte at it is not |
| Frames.ReadNumberSpec | parser.go:98-142 | `readNumber` succeeds exactly when at most one sign is followed by a non-empty digit run and then some byte, and stops on that byte with the run's signed, int64-wrapped value; an empty run followed by a byte is exactly `Expect Number` |
| Frames.ArgsAt | parser.go:171-205 | a successful decoding of `n` elements yields exactly `n` arguments |
| Frames.SplitSpaces | parser.go:223 | `bytes.Split` on a single space: one more piece than spaces, no piece holds a space, and joining the pieces gives the line back |
| Frames.SplitJoin | parser.go:223 | splitting a space-joined list of space-free pieces gives the list back |
| Frames.InlineAt | parser.go:223 | an inline request has one argument more than its line has spaces |
| Frames.InlineArgs | parser.go:223 | every inline argument is a present byte string, in line order |
| Protocol.Command.Get | parser.go:40-46 | an index inside the argument list reads that argument; any other index reads nil |
| Decimal.Digits | examples/palisade-sharding-proxy/parser.go:255-257 | the decimal digits of a natural number: all digits, no leading zero, and their value is the number |
| Decimal.WrapIsMod | parser.go:121 | the `num*10 + digit` accumulation in uint64 is the run's decimal value modulo 2^64 |
| Decimal.FormatIntDigitsValue | parser.go:133-141 | `readNumber`'s wrapped accumulation and int64 conversion give back every int64 that `FormatInt` wrote, including the most negative |
| Decimal.ParseInt32 | sentinelCommands.go:48 | `ParseInt(v, 10, 32)`: an optional `+` or `-` and then a non-empty run of decimal digits (leading zeros allowed) is accepted exactly when its signed value is in the int32 range, and gives that value; anything else is rejected |
| Decimal.ParseRejectsBare | sentinelCommands.go:48 | the empty string and a lone sign are rejected |
| Decimal.ParseAcceptsPlusAndZeros | sentinelCommands.go:48 | `+7` and `007` are both accepted as 7 |
| Decimal.ParseFormatRoundTrip | sentinelCommands.go:48 | `ParseInt(FormatInt(v), 10, 32)` gives back every int32 value |
| Decimal.ParseRejectsNonDigit | sentinelCommands.go:48-52 | a non-digit anywhere after the optional sign is rejected |
| Encoder.SendError | examples/palisade-sharding-proxy/parser.go:258-265 | exactly `-`, the message and CR LF |
| Encoder.SendOk | examples/palisade-sharding-proxy/parser.go:266-272 | exactly the status line `+OK` CR LF |
| Encoder.SendString | examples/palisade-sharding-proxy/parser.go:274-281 | exactly `+`, the message and CR LF |
| Encoder.SendInt | examples/palisade-sharding-proxy/parser.go:283-290 | `:`, the signed decimal digits of the value and CR LF |
| Encoder.SendBulk | examples/palisade-sharding-proxy/parser.go:291-319 | every bulk reply starts with `$` and ends with CR LF; nil gives exactly the null bulk `$-1` CR LF, and only nil does; a present value, empty included, stands in full just before that final CR LF |
| Encoder.SendBulks | examples/palisade-sharding-proxy/parser.go:320-346 | every array reply starts with `*`; a non-nil one takes at least five bytes per element after a four-byte minimum |
| Encoder.SendBulkStrings | examples/palisade-sharding-proxy/parser.go:350-359 | a nil slice gives exactly the null array; otherwise every string becomes a present bulk, in order |
| Encoder.AsBulks | examples/palisade-sharding-proxy/parser.go:354-358 | the conversion keeps length and order and never produces a nil element |
| RoundTrip.ReadNumberFormat | parser.go:98-142 | `readNumber` reads back what `FormatInt` wrote, for every int64, when a non-digit follows |
| RoundTrip.SendIntReadable | examples/palisade-sharding-proxy/parser.go:283-290 | the digits of an integer reply read back as its value |
| RoundTrip.SimpleReplyLine | examples/palisade-sharding-proxy/parser.go:258-281 | a status or error line ends at its own CR LF exactly when the message holds no line feed |
| RoundTrip.ElementRoundTrip | examples/palisade-sharding-proxy/parser.go:305-319 | one present bulk of at most 65536 bytes decodes back to itself |
| RoundTrip.ArgsRoundTrip | parser.go:171-205 | consecutive encoded present bulks decode back to the same sequence |
| RoundTrip.BulksRoundTrip | examples/palisade-sharding-proxy/parser.go:326-346 | a non-nil array of at most 20 present bulks, each at most 65536 bytes, decodes to exactly those arguments |
| RoundTrip.StringsRoundTrip | examples/palisade-sharding-proxy/parser.go:350-359 | a string array reply of at most 20 strings decodes to those strings in order |
| RoundTrip.NullBulkElement | parser.go:184-203 | the encoder's null bulk, read as an element, needs a second CR LF after it |
| RoundTrip.NullElementAsymmetry | examples/palisade-sharding-proxy/parser.go:298-303 | a null first element followed by any other element fails to decode with `Expect Newline` |
| RoundTrip.NilArrayAsymmetry | parser.go:163-165 | the null array decodes to the nil command only when CR LF follows it |
| Handlers.NotSupported | main.go:185 | the error text is `Command '`, the command's name, then `' not supported` |
| Handlers.AuthConnection | main.go:82-89 | succeeds exactly when the token is present and mapped to true; writes nothing and changes nothing either way |
| Handlers.MissingTokenIsEmpty | main.go:83-84 | `AUTH` with no token presents the empty token |
| MockStore.Set | main.go:91-98 | stores the second argument, nil when absent, under the key, touches no other key, and replies `+OK` |
| MockStore.Get | main.go:100-107 | a stored value comes back as exactly `+`, the value and CR LF, and a missing key exactly as the null bulk; the store is unchanged |
| MockStore.GetAfterSet | main.go:91-107 | after `SET k v`, `GET k` replies `+v` CR LF |
| MockStore.SetLeavesOtherKeys | main.go:91-107 | a `SET` leaves the reply to a `GET` of another key unchanged |
| MockStore.SetWithoutValue | main.go:94-95 | `SET k` without a value stores nil, which `GET k` prints as an empty status line |
| SentinelCommands.Sentinel | sentinelCommands.go:23-32 | dispatch on the upper-cased subcommand; an unknown one is answered `Command '<SUB>' not supported` and changes nothing; only MONITOR and SET can change the registry |
| SentinelCommands.Monitor | sentinelCommands.go:84-93 | registers the pod from arguments 2 to 5, replacing any earlier one, with an empty auth password and 0 parallel syncs; other pods unchanged; replies `+OK` |
| SentinelCommands.SetOption | sentinelCommands.go:34-58 | an unknown pod gives `NOSUCHPOD`; `auth-pass` (any case) changes only that field; `parallel-syncs` stores an int32 value or replies `INVALIDVALUE`; any other setting is named back in its original case; every failure leaves the registry unchanged, and no other pod ever changes |
| SentinelCommands.MasterFields | sentinelCommands.go:76-80 | the eight alternating labels and values, parallel syncs in decimal |
| SentinelCommands.Master | sentinelCommands.go:70-82 | the field array of a known pod, or exactly the null bulk for an unknown one; nothing changes |
| SentinelCommands.MasterAddress | sentinelCommands.go:60-68 | the pod's name (not its IP) and port, or exactly the null bulk for an unknown pod; nothing changes |
| SentinelCommands.SubcommandCaseInsensitive | sentinelCommands.go:24-25 | commands differing only in the case of the subcommand are answered alike |
| SentinelCommands.MonitorThenMaster | sentinelCommands.go:70-93 | a freshly registered pod is reported with its name and port, an empty auth password and `0` parallel syncs |
| SentinelCommands.ParallelSyncsRoundTrip | sentinelCommands.go:47-55 | setting parallel syncs to the decimal form of an int32 stores it, and `MASTER` prints it back |
| SentinelCommands.MasterReplyDecodes | sentinelCommands.go:70-82 | a `MASTER` reply decodes, as a request, to its eight fields |
| Constellation.SentinelSet.Add | examples/palisade-auth-proxy/sentinelSet.go:10-14 | afterwards the address is a member and no other membership changes; the result says whether it was a member before |
| Constellation.SentinelSet.Remove | examples/palisade-auth-proxy/sentinelSet.go:16-18 | afterwards the address is not a member and no other membership changes; removing a non-member is a no-op |
| Constellation.NewConstellation | examples/palisade-auth-proxy/sentinelSet.go:5-8 | the new set has no member |
| Constellation.AddIdempotent | examples/palisade-auth-proxy/sentinelSet.go:10-14 | adding twice is adding once, and the second call reports presence |
| Constellation.AddThenRemove | examples/palisade-auth-proxy/sentinelSet.go:10-18 | removing a newly added address gives the set back |
| Constellation.Listing | examples/palisade-sharding-proxy/palisadeCommands.go:35-37 | ranging over the set yields every member exactly once |
| ShardingCommands.AddSentinel | examples/palisade-sharding-proxy/palisadeCommands.go:27-31 | the address becomes a member, other memberships are unchanged, and the reply is `+OK` whether or not it was new |
| ShardingCommands.AddKnownSentinel | examples/palisade-sharding-proxy/palisadeCommands.go:27-31 | adding a known address changes nothing but still replies `+OK` |
| ShardingCommands.KnownSentinels | examples/palisade-sharding-proxy/palisadeCommands.go:33-39 | every known address exactly once, as an array of bulks; with no address, exactly the null array; the set is unchanged |
| ShardingCommands.KnownSentinelsDecode | examples/palisade-sharding-proxy/palisadeCommands.go:33-39 | the reply decodes, as a request, to the listed addresses, and every member appears in it |
| Session.Start | main.go:113-117 | a new connection is unauthorized with both counters below their limits |
| Session.AuthTurn | main.go:136-163 | AUTH before authorization: a missing handler is reported and not counted; a failure counts, and the third ends the connection with `GOAWAY`; success authorizes and replies `+OK` |
| Session.UnauthedTurn | main.go:164-173 | any other command before authorization is never run, only counted; the third ends the connection with `GOAWAY` |
| Session.Step | main.go:119-193 | QUIT closes silently in any state; a protocol error is answered and changes nothing; other decode errors close silently; a handler runs only when registered, and before authorization only for AUTH; authorization is sticky and freezes the counters; once authorized, a handler error or an unknown command ends the connection; an open connection stays within both limits |
| Session.Run | main.go:119-193 | the loop reads no more inputs than it is given, all of them while the connection stays open, and at least one before it closes; an open connection stays within both limits; an authorized one never changes state |
| Session.RunStopsAtClose | main.go:119-193 | the loop reads no input after the turn that ends it: inputs appended after a closed run change nothing in its transcript |
| Session.ThirdUnauthedCommandCloses | main.go:164-172 | on a new connection, three other commands give `NOVALIDAUTH` twice, then `GOAWAY`, and close |
| Session.ThirdFailedAuthCloses | main.go:142-151 | on a new connection, three failed AUTHs give `INVALIDAUTH` twice, then `GOAWAY`, and close |
| Session.CountersIndependent | main.go:142-172 | a refused command never touches the failed-AUTH count, and an AUTH never touches the refused-command count |
| Session.LoginAfterRefusals | main.go:136-172 | after a refused command and a failed AUTH, a successful AUTH still authorizes |
| Session.MissingAuthHandler | main.go:137-140 | with no AUTH handler, every AUTH is answered `AUTH Command not supported`, uncounted, and the connection stays open |
| Session.NoLoginWithoutAuth | main.go:135-163 | only a successful AUTH can authorize a connection |
| Session.UnauthorizedBudget | main.go:135-173 | an unauthorized connection whose every request fails reads at most (3 - failed AUTHs) + (3 - refused commands) - 1 of them before it closes: five on a new connection |
| Servers.Consult | main.go:175-191 | the loop sees whether the name is registered and a registered handler's output; its error is the handler's own, and also set when a non-empty reply meets a connection that refuses writes |
| Servers.InitialBackend | main.go:75-77 | at start-up the store holds exactly the key `foo`, with value `foo`, and no pod is registered |
| Servers.InitialTokens | main.go:78-79 | at start-up exactly one token is known, `secretpass1`, and it is accepted |
| Servers.MainHandle | main.go:69-80 | the standalone table holds exactly GET, SET, SENTINEL and AUTH, each answered by its own handler: SET's and SENTINEL's replies and changes are those of `MockStore.Set` and `SentinelCommands.Sentinel`, each on its own part of the data; only AUTH can fail |
| Servers.MainStep | main.go:175-191 | the data changes only through a handler that ran |
| Servers.UnauthorizedLeavesData | main.go:135-173 | before authorization no request changes the store or the registry |
| Servers.AuthorizedBadTokenCloses | main.go:175-191 | an authorized connection that sends AUTH with a bad token is closed with no reply |
| Servers.AuthorizedGoodTokenSilent | main.go:82-89 | an authorized connection that sends AUTH with a good token gets no reply and stays open |
| Servers.AuthorizedUnknownCloses | main.go:178-186 | an authorized connection that sends an unknown command gets an error naming it and is closed |
| Servers.LoginSetGet | main.go:69-107 | a new connection that authorizes, stores a value and reads it gets `+OK`, `+OK` and the value, and stays open |
| Servers.ShardingHandle | examples/palisade-sharding-proxy/main.go:44-53 | the sharding table holds exactly SENTINEL, AUTH, ADDSENTINEL and KNOWNSENTINELS; only ADDSENTINEL changes the set |
| Servers.ShardingStep | examples/palisade-sharding-proxy/palisadeCommands.go:41-126 | the loop step `Session.Step` with the sharding table's answer: AUTH, ADDSENTINEL and SENTINEL are answered by their handlers, KNOWNSENTINELS leaves the set alone, other names are unregistered; the set changes only through an ADDSENTINEL that ran; only AUTH with a token mapped to true authorizes |

## Left out

- The listener, the accept loop, command-line flags, environment variables and
  logging (`main.go:196-209`, `examples/palisade-sharding-proxy/main.go`,
  `examples/palisade-auth-proxy/main.go`) are I/O and start-up.
- Concurrency is left out: one goroutine per connection, and global maps shared
  without locks. The model follows one connection at a time, and the tokens are
  an input.
- The Sentinel handlers of the two example proxies
  (`examples/palisade-sharding-proxy/sentinelCommands.go`,
  `examples/palisade-auth-proxy/sentinelCommands.go`) dial real Sentinels
  through a client library. In `Servers.ShardingHandle`, what that `SENTINEL`
  writes and returns is an input.
- `bufio.Writer` buffering and flushing are not modelled, because they do not
  change the bytes written. A failing write is one boolean per turn, chosen
  freely. `bufio.Writer` keeps its first error, so after one failed write every
  later write fails too; the model does not impose that.
- Go panics are excluded by preconditions:
  - `Session.Step` and `Session.Run` exclude the nil command of a null array,
    which `main.go:130` dereferences.
  - `Parser.ReadCommand` excludes a stream that starts with a line feed, for
    which `parser.go:223` slices `buffer[:-1]`.
- Go's slice aliasing is not modelled. The arguments of both paths alias the
  parser's buffer: the multibulk path at `parser.go:196`, and the inline path at
  `parser.go:223`. The model gives them value semantics. `Set` stores its value
  argument without a copy (`main.go:94-95`); only the key is copied by
  `string(...)`. So a later request read into the same buffer overwrites the
  stored value, unless the buffer was reallocated in between. After the inline
  request `SET k v` CR LF, the request `GET k` CR LF puts a line feed where `v`
  was, and the reply is `+` LF CR LF.
- MockStore.GetAfterSet: holds only under the model's value semantics for
  stored values. Across requests on one connection, the byte-level reply can
  differ, as above.
- Servers.LoginSetGet: holds only under the same value semantics. With aliasing,
  the value `GET` returns can be overwritten by the bytes of the `GET` request.
- Chunking independence is stated only for the multibulk path. On the inline
  path, the `LineTooLong` check and the buffer scan depend on read sizes.
- Every reader error, end of stream included, is one `StreamError`.
- Session.CommandName: `strings.ToUpper` is modelled on ASCII only. Non-ASCII
  letters are left as they are, so a command name only matches a table entry
  when its letters are ASCII. `SentinelCommands.Subcommand` and
  `SentinelCommands.Setting` upper-case the same way, so a subcommand or a
  setting name with non-ASCII letters is likewise never matched. Go's
  `strings.ToUpper` maps `ı` (U+0131) to `I` and `ſ` (U+017F) to `S`, so
  `quıt` closes the connection and `ſet` runs SET in Go, while neither
  matches in the model; Go also upper-cases other non-ASCII letters and
  replaces invalid UTF-8 with U+FFFD in the `Command '…' not supported` text.
- Decimal.ToInt64: Go's `int` is taken to be 64 bits wide, so `int(num)` at
  `parser.go:137-139` wraps modulo 2^64. On a 32-bit platform it would wrap
  modulo 2^32.
- Parser.ScanLine: searches only the bytes read for this command. The search
  at `parser.go:210` covers the whole buffer; `Parser.ParseTelnetAsWritten` and
  `Parser.ReadCommandAsWritten` model that (see "Findings").
- RoundTrip.BulksRoundTrip: holds only for present elements of at most 65536
  bytes and at most 20 of them. The decoder rejects larger ones, and null
  elements do not round-trip (see `RoundTrip.NullElementAsymmetry`).
- Session.LoginAfterRefusals: shows one refused command and one failed AUTH
  before the login. `Session.CountersIndependent` covers the general case, one
  turn at a time.
- Encoder.SendBulk: for a present value its contract gives the frame bytes and
  where the value sits; the length line is stated through
  `RoundTrip.ElementRoundTrip`.
- Encoder.SendBulks: its contract gives the first byte and a length bound; the
  element bytes are stated through `RoundTrip.BulksRoundTrip`.

## Findings

| source | as written | input that shows it | evidently intended | confidence | as-written member | corrected member |
|---|---|---|---|---|---|---|
| parser.go:210 | `bytes.IndexByte(r.buffer, '\n')` searches the whole backing buffer, including bytes left over from earlier commands past `writeIndex` | after the inline request `GET a` CR LF, the request `PING` CR LF whose first read returns only `PI`: the buffer holds `PIT a` CR LF, so the request decodes as `PIT`, `a` instead of `PING` | search only the bytes read for this command, `r.buffer[:r.writeIndex]` | high (not executed) | Parser.ParseTelnetAsWritten, Parser.ReadCommandAsWritten, Parser.StaleNewline | Parser.ParseTelnet, Parser.ReadCommand |

=== FILE: bytes.dfy ===
/** Octets, ASCII literals and the few byte-slice primitives the proxy relies on
    (Go's `bytes.IndexByte` and the ASCII part of `strings.ToUpper`). */
module Bytes {

  /** Go's `byte`. */
  newtype byte = x: int | 0 <= x < 256

  const CR: byte := 13
  const LF: byte := 10
  const SPACE: byte := 32
  const DOLLAR: byte := 36   // '$'
  const STAR: byte := 42     // '*'
  const PLUS: byte := 43     // '+'
  const MINUS: byte := 45    // '-'
  const COLON: byte := 58    // ':'
  const ZERO: byte := 48     // '0'
  const NINE: byte := 57     // '9'

  const CRLF: seq<byte> := [CR, LF]

  /** The bytes of a string literal; every literal of the model is ASCII. */
  function Str(s: string): (r: seq<byte>)
    ensures |r| == |s|
    ensures forall i :: 0 <= i < |s| ==> r[i] as int == s[i] as int % 256
  {
    seq(|s|, i requires 0 <= i < |s| => (s[i] as int % 256) as byte)
  }

  predicate IsDigit(b: byte) {
    ZERO <= b <= NINE
  }

  predicate AllDigits(ds: seq<byte>) {
    forall k :: 0 <= k < |ds| ==> IsDigit(ds[k])
  }

  /** ASCII upper-casing of one byte. */
  function UpperByte(b: byte): (u: byte)
    ensures 97 <= b <= 122 ==> u as int == b as int - 32
    ensures !(97 <= b <= 122) ==> u == b
  {
    if 97 <= b <= 122 then b - 32 else b
  }

  /** `strings.ToUpper` restricted to ASCII: lower-case letters map to upper case,
      every other byte is kept. */
  function ToUpper(s: seq<byte>): (r: seq<byte>)
    ensures |r| == |s|
    ensures forall i :: 0 <= i < |s| ==> r[i] == UpperByte(s[i])
  {
    seq(|s|, i requires 0 <= i < |s| => UpperByte(s[i]))
  }

  /** `bytes.IndexByte`: the index of the first occurrence of `b` in `s`, or -1. */
  function IndexOf(s: seq<byte>, b: byte): (r: int)
    ensures -1 <= r < |s|
    ensures r == -1 <==> b !in s
    ensures r >= 0 ==> s[r] == b && b !in s[..r]
  {
    if |s| == 0 then -1
    else if s[0] == b then 0
    else
      var k := IndexOf(s[1..], b);
      if k < 0 then -1 else k + 1
  }

  /** Appending bytes after the first occurrence does not move it. */
  lemma IndexOfPrefix(s: seq<byte>, t: seq<byte>, b: byte)
    requires b in s
    ensures IndexOf(s + t, b) == IndexOf(s, b)
  {
    var i := IndexOf(s, b);
    assert (s + t)[i] == b;
  }

  /** The first occurrence is the one with no earlier occurrence. */
  lemma IndexOfAt(s: seq<byte>, i: nat, b: byte)
    requires i < |s| && s[i] == b && b !in s[..i]
    ensures IndexOf(s, b) == i
  {
    var r := IndexOf(s, b);
    assert r >= 0 && s[r] == b && b !in s[..r];
    assert r >= i by {
      assert forall j :: 0 <= j < i ==> s[..i][j] == s[j];
    }
    assert r <= i by {
      assert forall j :: 0 <= j < r ==> s[..r][j] == s[j];
    }
  }

  /** A window of `s` holding `a + b` holds `a`, then `b`. */
  lemma SliceSplit(s: seq<byte>, pos: nat, a: seq<byte>, b: seq<byte>)
    requires pos + |a| + |b| <= |s| && s[pos..pos + |a| + |b|] == a + b
    ensures s[pos..pos + |a|] == a && s[pos + |a|..pos + |a| + |b|] == b
  {
    forall k | 0 <= k < |a|
      ensures s[pos + k] == a[k]
    {
      assert s[pos + k] == s[pos..pos + |a| + |b|][k];
    }
    forall k | 0 <= k < |b|
      ensures s[pos + |a| + k] == b[k]
    {
      assert s[pos + |a| + k] == s[pos..pos + |a| + |b|][|a| + k];
    }
  }

  /** `SliceSplit` with the boundaries named. */
  lemma SliceCut(s: seq<byte>, pos: nat, mid: nat, end: nat, a: seq<byte>, b: seq<byte>)
    requires mid == pos + |a| && end == mid + |b| && end <= |s| && s[pos..end] == a + b
    ensures s[pos..mid] == a && s[mid..end] == b
  {
    SliceSplit(s, pos, a, b);
  }

  /** One byte of a window. */
  lemma SliceAt(s: seq<byte>, pos: nat, a: seq<byte>, k: nat)
    requires pos + |a| <= |s| && s[pos..pos + |a|] == a && k < |a|
    ensures s[pos + k] == a[k]
  {
    assert s[pos + k] == s[pos..pos + |a|][k];
  }

  /** Bytes without `b` in front shift the first occurrence of `b` by their number. */
  lemma {:induction false} IndexOfAfter(s: seq<byte>, t: seq<byte>, b: byte)
    requires b !in s
    ensures IndexOf(s + t, b) == if b in t then |s| + IndexOf(t, b) else -1
  {
    if s != [] {
      var rest := s[1..];
      assert s + t == [s[0]] + (rest + t);
      assert s == [s[0]] + rest;
      assert b !in rest && s[0] != b;
      assert b in rest + t <==> b in t;
      IndexOfAfter(rest, t, b);
      IndexOfCons(s[0], rest + t, b);
    } else {
      assert s + t == t;
    }
  }

  /** A different first byte shifts the first occurrence by one. */
  lemma IndexOfCons(b0: byte, s: seq<byte>, b: byte)
    requires b0 != b
    ensures IndexOf([b0] + s, b) == if b in s then IndexOf(s, b) + 1 else -1
  {
    assert ([b0] + s)[1..] == s;
  }
}

=== FILE: decimal.dfy ===
/** Decimal text and Go's fixed-width integers: the digit accumulation of the
    request decoder (uint64 arithmetic, converted to int64), `strconv.FormatInt`
    and `strconv.ParseInt(s, 10, 32)`. */
module Decimal {
  import opened Bytes

  const TWO63: int := 0x8000_0000_0000_0000
  const TWO64: int := 0x1_0000_0000_0000_0000
  const TWO31: int := 0x8000_0000

  predicate IsInt64(v: int) {
    -TWO63 <= v < TWO63
  }

  predicate IsInt32(v: int) {
    -TWO31 <= v < TWO31
  }

  function DigitValue(b: byte): (d: nat)
    requires IsDigit(b)
    ensures d < 10
  {
    (b - ZERO) as nat
  }

  function DigitByte(d: nat): (b: byte)
    requires d < 10
    ensures IsDigit(b) && DigitValue(b) == d
  {
    (d + 48) as byte
  }

  /** The number a run of ASCII digits denotes, read most significant first. */
  function DecimalValue(ds: seq<byte>): nat
    requires AllDigits(ds)
  {
    if |ds| == 0 then 0
    else DecimalValue(ds[..|ds| - 1]) * 10 + DigitValue(ds[|ds| - 1])
  }

  /** The same fold as `num = num*10 + uint64(c-'0')` on a Go uint64:
      every step wraps modulo 2^64. */
  function WrapU64Digits(ds: seq<byte>): (u: nat)
    requires AllDigits(ds)
    ensures u < TWO64
  {
    if |ds| == 0 then 0
    else (WrapU64Digits(ds[..|ds| - 1]) * 10 + DigitValue(ds[|ds| - 1])) % TWO64
  }

  /** Go's `int(u)` for a uint64 `u` on a 64-bit platform (two's complement). */
  function ToInt64(u: nat): (v: int)
    requires u < TWO64
    ensures IsInt64(v)
  {
    if u < TWO63 then u else u - TWO64
  }

  /** The conversion keeps the value modulo 2^64: it only reinterprets the bits. */
  lemma ToInt64Congruent(u: nat)
    requires u < TWO64
    ensures ToInt64(u) % TWO64 == u
  {
  }

  /** Go's unary minus on int64: the most negative value is its own negation. */
  function NegInt64(v: int): (w: int)
    requires IsInt64(v)
    ensures IsInt64(w)
  {
    if v == -TWO63 then v else -v
  }

  /** Negation is exact modulo 2^64, the wrapped case included. */
  lemma NegInt64Congruent(v: int)
    requires IsInt64(v)
    ensures (v + NegInt64(v)) % TWO64 == 0
  {
  }

  /** The value `readNumber` returns for an optional minus sign and a digit run. */
  function Int64FromDigits(neg: bool, ds: seq<byte>): (v: int)
    requires AllDigits(ds)
    ensures IsInt64(v)
  {
    var i := ToInt64(WrapU64Digits(ds));
    if neg then NegInt64(i) else i
  }

  function Pow10(n: nat): (p: nat)
    ensures p >= 1
  {
    if n == 0 then 1 else 10 * Pow10(n - 1)
  }

  lemma ModAddMultiple(x: nat, k: nat)
    ensures (x + k * TWO64) % TWO64 == x % TWO64
  {
  }

  /** Reducing the accumulator before each step changes nothing modulo 2^64. */
  lemma ModStep(a: nat, d: nat)
    ensures ((a % TWO64) * 10 + d) % TWO64 == (a * 10 + d) % TWO64
  {
    var q := a / TWO64;
    assert a == q * TWO64 + a % TWO64;
    assert a * 10 + d == ((a % TWO64) * 10 + d) + (q * 10) * TWO64;
    ModAddMultiple((a % TWO64) * 10 + d, q * 10);
  }

  /** The wrapping accumulation is the exact decimal value reduced modulo 2^64. */
  lemma {:induction false} WrapIsMod(ds: seq<byte>)
    requires AllDigits(ds)
    ensures WrapU64Digits(ds) == DecimalValue(ds) % TWO64
  {
    if |ds| > 0 {
      var init := ds[..|ds| - 1];
      WrapIsMod(init);
      ModStep(DecimalValue(init), DigitValue(ds[|ds| - 1]));
    }
  }

  /** A run of n digits denotes a number below 10^n. */
  lemma {:induction false} DecimalValueBound(ds: seq<byte>)
    requires AllDigits(ds)
    ensures DecimalValue(ds) < Pow10(|ds|)
  {
    if |ds| > 0 {
      DecimalValueBound(ds[..|ds| - 1]);
    }
  }

  /** Short digit runs do not overflow: with at most 18 digits `readNumber`
      returns the exact signed decimal value. */
  lemma ShortRunIsExact(neg: bool, ds: seq<byte>)
    requires AllDigits(ds) && |ds| <= 18
    ensures Int64FromDigits(neg, ds) == if neg then -(DecimalValue(ds) as int) else DecimalValue(ds)
  {
    var v := DecimalValue(ds);
    DecimalValueBound(ds);
    Pow10Monotone(|ds|, 18);
    Pow10Of18();
    assert v < TWO63;
    WrapIsMod(ds);
    assert WrapU64Digits(ds) == v;
    assert ToInt64(v) == v;
  }

  lemma Pow10Of18()
    ensures Pow10(18) == 1_000_000_000_000_000_000
  {
    assert Pow10(2) == 100;
    assert Pow10(4) == 10_000;
    assert Pow10(6) == 1_000_000;
    assert Pow10(8) == 100_000_000;
    assert Pow10(10) == 10_000_000_000;
    assert Pow10(12) == 1_000_000_000_000;
    assert Pow10(14) == 100_000_000_000_000;
    assert Pow10(16) == 10_000_000_000_000_000;
  }

  lemma {:induction false} Pow10Monotone(m: nat, n: nat)
    requires m <= n
    ensures Pow10(m) <= Pow10(n)
  {
    if m < n {
      Pow10Monotone(m, n - 1);
    }
  }

  /** Decimal digits of a natural number, most significant first, no leading zero. */
  function Digits(n: nat): (ds: seq<byte>)
    ensures |ds| >= 1 && AllDigits(ds)
    ensures DecimalValue(ds) == n
    ensures ds[0] == ZERO ==> n == 0
  {
    if n < 10 then [DigitByte(n)]
    else
      var init := Digits(n / 10);
      var ds := init + [DigitByte(n % 10)];
      assert ds[..|ds| - 1] == init;
      ds
  }

  /** `strconv.FormatInt(v, 10)`. */
  function FormatInt(v: int): (s: seq<byte>)
  {
    if v < 0 then [MINUS] + Digits(-v) else Digits(v)
  }

  /** `strconv.ParseInt(s, 10, 32)`: an optional sign, then one or more ASCII digits,
      denoting a value in the int32 range; anything else is an error (None). */
  function ParseInt32(s: seq<byte>): (r: Option<int>)
    ensures r.Some? ==> IsInt32(r.value)
    // Unsigned: one or more digits, leading zeros allowed.
    ensures AllDigits(s) ==> (r.Some? <==> s != [] && IsInt32(DecimalValue(s)))
    ensures AllDigits(s) && r.Some? ==> r.value == DecimalValue(s)
    // Signed: the sign, then one or more digits.
    ensures s != [] && s[0] == MINUS ==>
              (r.Some? <==> |s| > 1 && AllDigits(s[1..]) && IsInt32(-(DecimalValue(s[1..]) as int)))
    ensures s != [] && s[0] == MINUS && r.Some? ==> AllDigits(s[1..]) && r.value == -(DecimalValue(s[1..]) as int)
    ensures s != [] && s[0] == PLUS ==>
              (r.Some? <==> |s| > 1 && AllDigits(s[1..]) && IsInt32(DecimalValue(s[1..])))
    ensures s != [] && s[0] == PLUS && r.Some? ==> AllDigits(s[1..]) && r.value == DecimalValue(s[1..])
    // Anything else is an error.
    ensures s != [] && s[0] != MINUS && s[0] != PLUS && !AllDigits(s) ==> r.None?
  {
    if |s| == 0 then None
    else
      var neg := s[0] == MINUS;
      var body := if s[0] == MINUS || s[0] == PLUS then s[1..] else s;
      if |body| == 0 || !AllDigits(body) then None
      else
        var m: int := DecimalValue(body);
        var v := if neg then -m else m;
        if IsInt32(v) then Some(v) else None
  }

  datatype Option<+T> = None | Some(value: T)

  /** `readNumber` inverts `FormatInt` on the whole int64 range, the most negative
      value included: its magnitude 2^63 wraps to itself twice. */
  lemma FormatIntDigitsValue(v: int)
    requires IsInt64(v)
    ensures var ds := if v < 0 then Digits(-v) else Digits(v);
            Int64FromDigits(v < 0, ds) == v
  {
    var m: nat := if v < 0 then -v else v;
    var ds := Digits(m);
    WrapIsMod(ds);
    SmallMod(m);
    var u := WrapU64Digits(ds);
    assert u == m;
    if v >= 0 {
      assert ToInt64(u) == v;
    } else if v == -TWO63 {
      assert ToInt64(u) == -TWO63;
    } else {
      assert ToInt64(u) == m;
    }
  }

  lemma SmallMod(x: nat)
    requires x < TWO64
    ensures x % TWO64 == x
  {
  }

  /** `ParseInt(FormatInt(v, 10), 10, 32)` gives back every int32 value. */
  lemma ParseFormatRoundTrip(v: int)
    requires IsInt32(v)
    ensures ParseInt32(FormatInt(v)) == Some(v)
  {
    var s := FormatInt(v);
    if v < 0 {
      assert s[1..] == Digits(-v);
    }
  }

  /** The empty string and a sign alone are rejected. */
  lemma ParseRejectsBare()
    ensures ParseInt32([]) == None
    ensures ParseInt32([MINUS]) == None && ParseInt32([PLUS]) == None
  {
  }

  /** A plus sign and leading zeros are accepted: `+7` and `007` are both 7. */
  lemma ParseAcceptsPlusAndZeros()
    ensures ParseInt32([PLUS, 55]) == Some(7)
    ensures ParseInt32([ZERO, ZERO, 55]) == Some(7)
  {
    var seven: seq<byte> := [55];
    assert [PLUS, 55][1..] == seven;
    assert DecimalValue(seven) == 7 by {
      assert seven[..0] == [];
    }
    var zeros: seq<byte> := [ZERO, ZERO];
    var padded: seq<byte> := [ZERO, ZERO, 55];
    assert DecimalValue(zeros) == 0 by {
      assert zeros[..1] == [ZERO];
      assert [ZERO][..0] == [];
    }
    assert padded[..2] == zeros;
    assert DecimalValue(padded) == 7;
  }

  /** A non-digit anywhere after the optional sign is rejected. */
  lemma ParseRejectsNonDigit(s: seq<byte>, i: nat)
    requires i < |s| && !IsDigit(s[i])
    requires i > 0 || (s[0] != MINUS && s[0] != PLUS)
    ensures ParseInt32(s) == None
  {
    if s[0] == MINUS || s[0] == PLUS {
      assert s[1..][i - 1] == s[i];
    }
  }
}

=== FILE: encoder.dfy ===
/** The reply encoders of the proxy: each `Send*` is the exact byte string it
    hands to the connection's writer. Buffering and flushing do not change the
    bytes and are not modelled; a failing write is the session's concern. */
module Encoder {
  import opened Bytes
  import opened Decimal
  import opened Protocol

  const NilBulk: seq<byte> := [DOLLAR, MINUS, 49, CR, LF]
  const NilArray: seq<byte> := [STAR, MINUS, 49, CR, LF]

  /** `SendError(msg)`: an error line. */
  function SendError(msg: seq<byte>): (out: seq<byte>)
    ensures |out| == |msg| + 3 && out[0] == MINUS && out[|out| - 2..] == CRLF
    ensures out[1..|out| - 2] == msg
  {
    [MINUS] + msg + CRLF
  }

  /** `SendString(msg)`: a status line. */
  function SendString(msg: seq<byte>): (out: seq<byte>)
    ensures |out| == |msg| + 3 && out[0] == PLUS && out[|out| - 2..] == CRLF
    ensures out[1..|out| - 2] == msg
  {
    [PLUS] + msg + CRLF
  }

  /** `SendOk`: the prebuilt `+OK` line. */
  function SendOk(): (out: seq<byte>)
    ensures out == SendString(Str("OK"))
  {
    [PLUS, 79, 75, CR, LF]
  }

  /** `SendInt(val)`: an integer line with the signed decimal digits of an int64. */
  function SendInt(v: int): (out: seq<byte>)
    requires IsInt64(v)
    ensures |out| >= 4 && out[0] == COLON && out[|out| - 2..] == CRLF
    ensures out[1..|out| - 2] == FormatInt(v)
  {
    [COLON] + FormatInt(v) + CRLF
  }

  /** `SendBulk(val)` (and `sendBulk`): the nil slice as the null bulk, any other
      value, empty included, as its length line followed by the bytes and CR LF. */
  function SendBulk(a: Arg): (out: seq<byte>)
    ensures |out| >= 5 && out[0] == DOLLAR && out[|out| - 2..] == CRLF
    ensures a.Bulk? ==> |out| >= |a.data| + 5 && out[|out| - |a.data| - 2..|out| - 2] == a.data
    ensures a.Null? <==> out == NilBulk
  {
    match a
    case Null => NilBulk
    case Bulk(d) => [DOLLAR] + (FormatInt(|d|) + (CRLF + (d + CRLF)))
  }

  /** The bulks of `vals`, one after the other. */
  function SendEach(vals: seq<Arg>): (out: seq<byte>)
    ensures |out| >= 5 * |vals|
  {
    if vals == [] then [] else SendBulk(vals[0]) + SendEach(vals[1..])
  }

  /** `SendBulks(vals)` (and `sendBulks`): the nil slice as the null array,
      otherwise the element count line and every element's bulk in order; the
      empty non-nil slice is `*0` CR LF. */
  function SendBulks(vals: Option<seq<Arg>>): (out: seq<byte>)
    ensures |out| >= 4 && out[0] == STAR
    ensures vals.Some? ==> |out| >= 4 + 5 * |vals.value|
  {
    match vals
    case None => NilArray
    case Some(vs) => [STAR] + (FormatInt(|vs|) + (CRLF + SendEach(vs)))
  }

  /** `SendBulkString(str)`: a string is never the nil slice. */
  function SendBulkString(str: seq<byte>): (out: seq<byte>)
    ensures out == SendBulk(Bulk(str))
  {
    SendBulk(Bulk(str))
  }

  /** `[]byte(s)` of every string, in order: never a nil element. */
  function AsBulks(strs: seq<seq<byte>>): (args: seq<Arg>)
    ensures |args| == |strs|
    ensures forall i :: 0 <= i < |strs| ==> args[i] == Bulk(strs[i])
  {
    seq(|strs|, i requires 0 <= i < |strs| => Bulk(strs[i]))
  }

  /** `SendBulkStrings(strs)`: the nil slice stays the null array; otherwise every
      string becomes a present bulk, in order. */
  function SendBulkStrings(strs: Option<seq<seq<byte>>>): (out: seq<byte>)
    ensures strs.None? <==> out == NilArray
    ensures strs.Some? ==> out == SendBulks(Some(AsBulks(strs.value)))
  {
    match strs
    case None => SendBulks(None)
    case Some(ss) =>
      var out := SendBulks(Some(AsBulks(ss)));
      assert out[1] != MINUS by {
        assert out[1] == FormatInt(|ss|)[0];
      }
      out
  }
}

=== FILE: frames.dfy ===
/** The request decoder as a pure function of the byte stream.

    Positions are absolute offsets into the stream `s` the peer sends from the start
    of one `ReadCommand`; running past the end of `s` is the reader's EOF, a
    `StreamError`, wherever the buffered decoder would block on a read. */
module Frames {
  import opened Bytes
  import opened Decimal
  import opened Protocol

  /** A decoded value and the position just after it, or the error that stopped decoding. */
  datatype Parse<T> = Parsed(value: T, next: nat) | Failed(err: DecodeError)

  /** Position after the optional single `+`/`-` at `pos`. */
  function SignEnd(s: seq<byte>, pos: nat): (e: nat)
    requires pos < |s|
    ensures e == pos || e == pos + 1
    ensures e == pos + 1 <==> (s[pos] == MINUS || s[pos] == PLUS)
  {
    if s[pos] == MINUS || s[pos] == PLUS then pos + 1 else pos
  }

  /** End of the maximal run of ASCII digits starting at `i`. */
  function DigitRunEnd(s: seq<byte>, i: nat): (j: nat)
    requires i <= |s|
    ensures i <= j <= |s|
    ensures AllDigits(s[i..j])
    ensures j < |s| ==> !IsDigit(s[j])
    decreases |s| - i
  {
    if i == |s| || !IsDigit(s[i]) then i else DigitRunEnd(s, i + 1)
  }

  /** `readNumber`: an optional sign, then a digit run that must be followed by a
      non-digit byte (a stream that ends inside the run is a stream error). */
  function ReadNumberAt(s: seq<byte>, pos: nat): (r: Parse<int>)
    requires pos <= |s|
    ensures r.Parsed? ==> pos < r.next < |s|
  {
    if pos == |s| then Failed(StreamError)
    else
      var start := SignEnd(s, pos);
      var end := DigitRunEnd(s, start);
      if end == |s| then Failed(StreamError)
      else if end == start then Failed(ExpectNumber)
      else Parsed(Int64FromDigits(s[pos] == MINUS, s[start..end]), end)
  }

  /** `discardNewLine`: two more bytes must be available and be exactly CR LF. */
  function NewLineAt(s: seq<byte>, pos: nat): (r: Parse<()>)
    requires pos <= |s|
    ensures r.Parsed? <==> pos + 2 <= |s| && s[pos] == CR && s[pos + 1] == LF
    ensures r.Parsed? ==> r.next == pos + 2
    ensures r.Failed? ==> r.err == (if pos + 2 <= |s| then ExpectNewLine else StreamError)
  {
    if pos + 2 > |s| then Failed(StreamError)
    else if s[pos] == CR && s[pos + 1] == LF then Parsed((), pos + 2)
    else Failed(ExpectNewLine)
  }

  /** The argument slot a bulk header `$plen\r\n` announces, read from `pos` on. */
  function BulkBody(s: seq<byte>, plen: int, pos: nat): (r: Parse<Arg>)
    requires pos <= |s|
    ensures r.Parsed? ==> pos <= r.next <= |s|
  {
    if plen == -1 then Parsed(Null, pos)
    else if plen == 0 then Parsed(Bulk([]), pos)
    else if 0 < plen <= MaxBulkSize then
      if pos + plen > |s| then Failed(StreamError)
      else Parsed(Bulk(s[pos..pos + plen]), pos + plen)
    else Failed(InvalidBulkSize)
  }

  /** The header of one element of a multibulk request: `$` and a length. */
  function HeaderAt(s: seq<byte>, pos: nat): (r: Parse<int>)
    requires pos <= |s|
    ensures r.Parsed? ==> pos < r.next <= |s|
  {
    if pos == |s| then Failed(StreamError)
    else if s[pos] != DOLLAR then Failed(ExpectTypeChar)
    else ReadNumberAt(s, pos + 1)
  }

  /** What follows an element's length: CR LF, the body the length selects, CR LF. */
  function AfterLength(s: seq<byte>, plen: int, p1: nat): (r: Parse<Arg>)
    requires p1 <= |s|
    ensures r.Parsed? ==> p1 < r.next <= |s|
  {
    match NewLineAt(s, p1)
    case Failed(e) => Failed(e)
    case Parsed(_, p2) =>
      match BulkBody(s, plen, p2)
      case Failed(e) => Failed(e)
      case Parsed(a, p3) =>
        match NewLineAt(s, p3)
        case Failed(e) => Failed(e)
        case Parsed(_, p4) => Parsed(a, p4)
  }

  /** One element of a multibulk request: `$`, a length, CR LF, the body, CR LF. */
  function ElementAt(s: seq<byte>, pos: nat): (r: Parse<Arg>)
    requires pos <= |s|
    ensures r.Parsed? ==> pos < r.next <= |s|
  {
    match HeaderAt(s, pos)
    case Failed(e) => Failed(e)
    case Parsed(plen, p1) => AfterLength(s, plen, p1)
  }

  /** `n` consecutive elements starting at `pos`. */
  function ArgsAt(s: seq<byte>, pos: nat, n: nat): (r: Parse<seq<Arg>>)
    requires pos <= |s|
    ensures r.Parsed? ==> |r.value| == n && pos <= r.next <= |s|
    decreases n
  {
    if n == 0 then Parsed([], pos)
    else
      match ElementAt(s, pos)
      case Failed(e) => Failed(e)
      case Parsed(a, p) =>
        match ArgsAt(s, p, n - 1)
        case Failed(e) => Failed(e)
        case Parsed(rest, q) => Parsed([a] + rest, q)
  }

  /** The array header of a multibulk request: `*`, the element count, CR LF. */
  function CountAt(s: seq<byte>): (r: Parse<int>)
    requires s != [] && s[0] == STAR
    ensures r.Parsed? ==> 1 < r.next <= |s|
  {
    match ReadNumberAt(s, 1)
    case Failed(e) => Failed(e)
    case Parsed(numArg, p1) =>
      match NewLineAt(s, p1)
      case Failed(e) => Failed(e)
      case Parsed(_, p2) => Parsed(numArg, p2)
  }

  /** What follows the array header: for `-1` one more CR LF and the null array;
      a count outside `0..MaxNumArg` is rejected; otherwise that many elements. */
  function ArrayBody(s: seq<byte>, numArg: int, p2: nat): (r: Parse<Decoded>)
    requires p2 <= |s|
    ensures r.Parsed? ==> p2 <= r.next <= |s| && !r.value.DecodeFailure?
  {
    if numArg == -1 then
      match NewLineAt(s, p2)
      case Failed(e) => Failed(e)
      case Parsed(_, p3) => Parsed(NullFrame, p3)
    else if numArg < -1 || numArg > MaxNumArg then Failed(InvalidNumArg)
    else
      match ArgsAt(s, p2, numArg)
      case Failed(e) => Failed(e)
      case Parsed(args, q) => Parsed(Frame(Command(args)), q)
  }

  /** Decodes the multibulk request at the start of `s` (whose first byte, when
      there is one, is `*`): the command or null array and where it ends. */
  function DecodeMultibulk(s: seq<byte>): (r: Parse<Decoded>)
    requires s == [] || s[0] == STAR
    ensures r.Parsed? ==> r.next <= |s| && !r.value.DecodeFailure?
  {
    if s == [] then Failed(StreamError)
    else
      match CountAt(s)
      case Failed(e) => Failed(e)
      case Parsed(numArg, p2) => ArrayBody(s, numArg, p2)
  }

  /** The decoder's answer for a multibulk stream, as `ReadCommand` reports it. */
  function Decode(s: seq<byte>): (d: Decoded)
    requires s == [] || s[0] == STAR
  {
    match DecodeMultibulk(s)
    case Parsed(d, _) => d
    case Failed(e) => DecodeFailure(e)
  }

  // ---------------------------------------------------------------------------
  // Characterisations of the building blocks

  /** Prefixes the already decoded arguments to the decoding of the rest. */
  function Prepend(xs: seq<Arg>, r: Parse<seq<Arg>>): Parse<seq<Arg>> {
    match r
    case Parsed(v, n) => Parsed(xs + v, n)
    case Failed(e) => Failed(e)
  }

  /** One unfolding of `ArgsAt`, phrased with `Prepend`. */
  lemma ArgsStep(s: seq<byte>, pos: nat, n: nat)
    requires pos <= |s| && n > 0
    ensures match ElementAt(s, pos)
            case Failed(e) => ArgsAt(s, pos, n) == Failed(e)
            case Parsed(a, next) => ArgsAt(s, pos, n) == Prepend([a], ArgsAt(s, next, n - 1))
  {
  }

  /** A decoded element in front of the decoding of the rest. */
  lemma ArgsCons(s: seq<byte>, pos: nat, n: nat, a: Arg, next: nat, rest: Parse<seq<Arg>>)
    requires pos <= |s| && n > 0
    requires ElementAt(s, pos) == Parsed(a, next)
    requires ArgsAt(s, next, n - 1) == rest
    ensures ArgsAt(s, pos, n) == Prepend([a], rest)
  {
    ArgsStep(s, pos, n);
  }

  /** The digit-run end is determined by the first non-digit. */
  lemma {:induction false} DigitRunEndIs(s: seq<byte>, i: nat, j: nat)
    requires i <= j < |s|
    requires forall k :: i <= k < j ==> IsDigit(s[k])
    requires !IsDigit(s[j])
    ensures DigitRunEnd(s, i) == j
    decreases j - i
  {
    if i < j {
      DigitRunEndIs(s, i + 1, j);
    }
  }

  /** `readNumber` succeeds exactly when, after at most one sign byte, a non-empty
      digit run is followed by some further byte; it then stops on that byte and
      returns the (int64-wrapped) signed value of the run. */
  lemma ReadNumberSpec(s: seq<byte>, pos: nat)
    requires pos < |s|
    ensures var start := SignEnd(s, pos);
            var end := DigitRunEnd(s, start);
            && (ReadNumberAt(s, pos).Parsed? <==> start < end < |s|)
            && (ReadNumberAt(s, pos).Parsed? ==>
                  ReadNumberAt(s, pos).next == end
                  && ReadNumberAt(s, pos).value == Int64FromDigits(s[pos] == MINUS, s[start..end]))
            && (ReadNumberAt(s, pos) == Failed(ExpectNumber) <==> start == end < |s|)
  {
  }

  // ---------------------------------------------------------------------------
  // The inline (telnet) request form

  /** Number of space bytes in `line`. */
  function SpaceCount(line: seq<byte>): nat {
    multiset(line)[SPACE]
  }

  /** `bytes.Split(line, " ")`: the pieces between single spaces, empty pieces
      included, so `n` spaces always give `n + 1` pieces. */
  function SplitSpaces(line: seq<byte>): (parts: seq<seq<byte>>)
    ensures |parts| == SpaceCount(line) + 1
    ensures forall i :: 0 <= i < |parts| ==> SPACE !in parts[i]
    ensures JoinSpaces(parts) == line
    decreases |line|
  {
    var i := IndexOf(line, SPACE);
    if i < 0 then [line]
    else
      var rest := SplitSpaces(line[i + 1..]);
      SplitCons(line, i, rest);
      [line[..i]] + rest
  }

  /** One step of the split: the piece before the first space, then the pieces
      of what follows it. */
  lemma SplitCons(line: seq<byte>, i: nat, rest: seq<seq<byte>>)
    requires i < |line| && line[i] == SPACE && SPACE !in line[..i]
    requires |rest| == SpaceCount(line[i + 1..]) + 1
    requires forall j :: 0 <= j < |rest| ==> SPACE !in rest[j]
    requires JoinSpaces(rest) == line[i + 1..]
    ensures var parts := [line[..i]] + rest;
            && |parts| == SpaceCount(line) + 1
            && (forall j :: 0 <= j < |parts| ==> SPACE !in parts[j])
            && JoinSpaces(parts) == line
  {
    var head := line[..i];
    var tail := line[i + 1..];
    var parts := [head] + rest;
    assert line == head + [SPACE] + tail;
    assert multiset(line) == multiset(head) + multiset([SPACE]) + multiset(tail);
    assert multiset(head)[SPACE] == 0;
    assert parts[1..] == rest;
  }

  /** The pieces glued back together with one space between neighbours. */
  function JoinSpaces(parts: seq<seq<byte>>): seq<byte>
    requires |parts| >= 1
  {
    if |parts| == 1 then parts[0] else parts[0] + [SPACE] + JoinSpaces(parts[1..])
  }

  /** Splitting undoes joining for space-free pieces, so splitting loses nothing. */
  lemma {:induction false} SplitJoin(parts: seq<seq<byte>>)
    requires |parts| >= 1
    requires forall i :: 0 <= i < |parts| ==> SPACE !in parts[i]
    ensures SplitSpaces(JoinSpaces(parts)) == parts
  {
    if |parts| > 1 {
      var line := JoinSpaces(parts);
      var rest := JoinSpaces(parts[1..]);
      assert line == parts[0] + [SPACE] + rest;
      assert line[|parts[0]|] == SPACE;
      assert line[..|parts[0]|] == parts[0];
      assert IndexOf(line, SPACE) == |parts[0]|;
      assert line[|parts[0]| + 1..] == rest;
      SplitJoin(parts[1..]);
    }
  }

  /** The inline request the stream `s` starts with, when it holds a line feed:
      the bytes before it, minus the one just before it (the CR of a CR LF line
      ending), split at spaces. */
  function InlineAt(s: seq<byte>): (d: Decoded)
    requires LF in s && s[0] != LF
    ensures d.Frame? && |d.cmd.argv| == SpaceCount(s[..IndexOf(s, LF) - 1]) + 1
  {
    var nl := IndexOf(s, LF);
    Frame(Command(InlineArgs(s[..nl - 1])))
  }

  /** The arguments of an inline request: every piece is a present byte string. */
  function InlineArgs(line: seq<byte>): (argv: seq<Arg>)
    ensures |argv| == SpaceCount(line) + 1
    ensures forall i :: 0 <= i < |argv| ==> argv[i] == Bulk(SplitSpaces(line)[i])
  {
    var parts := SplitSpaces(line);
    seq(|parts|, i requires 0 <= i < |parts| => Bulk(parts[i]))
  }
}

=== FILE: handlers.dfy ===
/** What a command handler does to the proxy: the state it leaves behind, the
    bytes it hands to the writer and whether it returns an error. A handler
    here assumes its writes succeed; a failing write is added by the server
    that runs it. */
module Handlers {
  import opened Bytes
  import opened Protocol

  datatype Handled<S> = Handled(next: S, out: seq<byte>, err: bool)

  /** The auth tokens: a token is accepted when it maps to true. */
  type Tokens = map<seq<byte>, bool>

  /** The text of the error a dispatcher sends for a name it has no handler
      for: `Command '<name>' not supported`. */
  function NotSupported(name: seq<byte>): (msg: seq<byte>)
    ensures |msg| == |name| + 24 && msg[..9] == Str("Command '")
    ensures msg[9..9 + |name|] == name
    ensures msg[9 + |name|..] == Str("' not supported")
  {
    Str("Command '") + name + Str("' not supported")
  }

  /** The token a command presents: its first argument, nil read as empty. */
  function Token(c: Command): seq<byte> {
    ArgBytes(c.Get(1))
  }

  /** `authConnection` (identical in both servers): succeeds exactly when the
      token is present and mapped to true; it writes nothing and changes no
      state either way. */
  function AuthConnection<S>(st: S, tokens: Tokens, c: Command): (r: Handled<S>)
    ensures r.next == st && r.out == []
    ensures !r.err <==> Token(c) in tokens && tokens[Token(c)]
  {
    var t := Token(c);
    Handled(st, [], !(t in tokens && tokens[t]))
  }

  /** `AUTH` with no token presents the empty token, which is accepted only if
      the empty string maps to true. */
  lemma MissingTokenIsEmpty<S>(st: S, tokens: Tokens, c: Command)
    requires |c.argv| <= 1
    ensures !AuthConnection(st, tokens, c).err <==> [] in tokens && tokens[[]]
  {
  }
}

/** The mock key-value store of the standalone proxy: `GET` and `SET` over an
    in-memory map from keys to the byte slices last stored. */
module MockStore {
  import opened Bytes
  import opened Protocol
  import opened Encoder
  import opened Handlers

  /** Keys to stored values; a stored value may be the nil slice. */
  type Store = map<seq<byte>, Arg>

  /** The key a `GET` or `SET` names: its first argument. */
  function Key(c: Command): seq<byte> {
    ArgBytes(c.Get(1))
  }

  /** `Set`: stores the second argument (nil when absent) under the key, touching
      no other key, and replies `+OK`. */
  function Set(st: Store, c: Command): (r: Handled<Store>)
    ensures Key(c) in r.next && r.next[Key(c)] == c.Get(2)
    ensures forall k :: k != Key(c) ==> (k in r.next <==> k in st)
    ensures forall k :: k != Key(c) && k in st ==> r.next[k] == st[k]
    ensures r.out == SendOk() && !r.err
  {
    Handled(st[Key(c) := c.Get(2)], SendOk(), false)
  }

  /** `Get`: the stored value as a status line, nil printing as empty; the null
      bulk for a missing key. The store is unchanged. */
  function Get(st: Store, c: Command): (r: Handled<Store>)
    ensures r.next == st && !r.err
    ensures Key(c) in st ==> r.out == SendString(ArgBytes(st[Key(c)]))
    ensures Key(c) !in st <==> r.out == NilBulk
  {
    var k := Key(c);
    if k in st then
      var out := SendString(ArgBytes(st[k]));
      assert out[0] != NilBulk[0];
      Handled(st, out, false)
    else Handled(st, SendBulk(Null), false)
  }

  /** After `SET k v`, `GET k` replies `+v` CR LF, and any other key reads as
      before. */
  lemma GetAfterSet(st: Store, put: Command, get: Command)
    requires Key(get) == Key(put)
    ensures Get(Set(st, put).next, get).out == SendString(ArgBytes(put.Get(2)))
  {
  }

  /** A `SET` of one key leaves the reply to a `GET` of another unchanged. */
  lemma SetLeavesOtherKeys(st: Store, put: Command, get: Command)
    requires Key(get) != Key(put)
    ensures Get(Set(st, put).next, get).out == Get(st, get).out
  {
  }

  /** `SET k` with no value stores the nil slice, which `GET k` then prints as
      the empty status line rather than the null bulk. */
  lemma SetWithoutValue(st: Store, put: Command, get: Command)
    requires |put.argv| <= 2 && Key(get) == Key(put)
    ensures Get(Set(st, put).next, get).out == [PLUS, CR, LF]
  {
  }
}

=== FILE: parser.dfy ===
/** The buffered request decoder `RedisParser`.

    The Go parser is a struct mutated in place; here its state is a
    value threaded through the operations. `buffer` is the whole backing slice
    (its full capacity, stale bytes included), `writeIndex` the end of the bytes
    read for the current command and `parsePosition` the next unconsumed byte.
    The connection is a `Reader`: the bytes from the peer not read yet,
    plus chunk hints that decide how many bytes every read delivers. The hints
    stand for the arbitrary way a socket splits a stream into reads. */
module Parser {
  import opened Bytes
  import opened Decimal
  import opened Protocol
  import opened Frames

  /** The unread part of the connection and the chunking oracle. */
  datatype Reader = Reader(data: seq<byte>, chunks: seq<nat>)

  datatype ReadResult = ReadResult(got: seq<byte>, rest: Reader, ok: bool)

  function Min(a: nat, b: nat): nat {
    if a < b then a else b
  }

  function Max(a: nat, b: nat): nat {
    if a > b then a else b
  }

  /** `io.ReadAtLeast(reader, buf, min)` with `len(buf) == space`. It succeeds
      iff at least `min` bytes are still to come, and then delivers between `min`
      and `space` of them; how many is the next chunk hint's choice. On failure
      (EOF or unexpected EOF) every remaining byte has been read into `buf`. */
  method ReadAtLeast(rd: Reader, space: nat, min: nat) returns (r: ReadResult)
    requires 1 <= min <= space
    ensures r.ok <==> min <= |rd.data|
    ensures r.ok ==> min <= |r.got| <= space && rd.data == r.got + r.rest.data
    ensures !r.ok ==> r.got == rd.data && r.rest.data == [] && |r.got| < min
  {
    if |rd.data| < min {
      return ReadResult(rd.data, Reader([], rd.chunks), false);
    }
    var hint := if |rd.chunks| > 0 then rd.chunks[0] else min;
    var hi := Min(space, |rd.data|);
    var k := if hint < min then min else if hint > hi then hi else hint;
    var chunks := if |rd.chunks| > 0 then rd.chunks[1..] else [];
    assert rd.data == rd.data[..k] + rd.data[k..];
    return ReadResult(rd.data[..k], Reader(rd.data[k..], chunks), true);
  }

  datatype RedisParser = RedisParser(buffer: seq<byte>, parsePosition: nat, writeIndex: nat, reader: Reader) {

    /** `0 <= parsePosition <= writeIndex <= len(buffer)`. */
    predicate Valid() {
      parsePosition <= writeIndex <= |buffer|
    }

    /** The bytes read for the current command followed by those still to come. */
    function Seen(): seq<byte>
      requires Valid()
    {
      buffer[..writeIndex] + reader.data
    }
  }

  /** The parser is positioned inside the stream `s` sent since the current
      command began: the buffered bytes are the first `writeIndex` bytes of `s`. */
  ghost predicate Tracks(p: RedisParser, s: seq<byte>) {
    p.Valid() && p.Seen() == s
  }

  /** Everything read from `s` so far sits, in order, at the front of the buffer,
      and what remains to be read is the rest of `s`. */
  ghost predicate Consumed(p: RedisParser, s: seq<byte>) {
    && p.Valid()
    && |p.reader.data| <= |s|
    && p.reader.data == s[|s| - |p.reader.data|..]
    && |s| - |p.reader.data| <= |p.buffer|
    && p.buffer[..|s| - |p.reader.data|] == s[..|s| - |p.reader.data|]
  }

  lemma TracksAt(p: RedisParser, s: seq<byte>, k: nat)
    requires Tracks(p, s) && k < p.writeIndex
    ensures k < |s| && p.buffer[k] == s[k]
  {
    assert s[k] == p.buffer[..p.writeIndex][k];
  }

  lemma TracksConsumed(p: RedisParser, s: seq<byte>)
    requires Tracks(p, s)
    ensures Consumed(p, s)
    ensures p.writeIndex <= |s| && s[..p.writeIndex] == p.buffer[..p.writeIndex]
  {
    assert |s| - |p.reader.data| == p.writeIndex;
    assert s[..p.writeIndex] == p.buffer[..p.writeIndex];
    assert s[p.writeIndex..] == p.reader.data;
  }

  function Zeros(n: nat): (z: seq<byte>)
    ensures |z| == n
  {
    seq(n, _ => 0)
  }

  /** `NewParser`: an empty 1 KiB buffer over the connection. */
  function NewParser(reader: Reader): (p: RedisParser)
    ensures p.Valid() && p.parsePosition == 0 && p.writeIndex == 0
    ensures |p.buffer| == ReadBufferInitSize && p.reader == reader
  {
    RedisParser(Zeros(ReadBufferInitSize), 0, 0, reader)
  }

  /** `requestSpace`: afterwards `req` bytes fit after `writeIndex`; growing copies
      the whole old buffer to the front of the new one, so no byte is lost. */
  method RequestSpace(p: RedisParser, req: nat) returns (q: RedisParser)
    requires p.Valid()
    ensures q.Valid() && q.writeIndex + req <= |q.buffer|
    ensures |p.buffer| <= |q.buffer| && q.buffer[..|p.buffer|] == p.buffer
    ensures p.writeIndex + req <= |p.buffer| ==> q == p
    ensures q.parsePosition == p.parsePosition && q.writeIndex == p.writeIndex && q.reader == p.reader
    ensures forall k :: |p.buffer| <= k < |q.buffer| ==> q.buffer[k] == 0
  {
    var ccap := |p.buffer|;
    if p.writeIndex + req > ccap {
      var ncap := Max(ccap * 2, ccap + req + ReadBufferInitSize);
      return p.(buffer := p.buffer + Zeros(ncap - ccap));
    }
    return p;
  }

  /** `readSome(min)`: one `io.ReadAtLeast` into the free space after `writeIndex`.
      On success at least `min` bytes are appended to the read data; on failure the
      stream is exhausted and `writeIndex` does not move. Either way the bytes read
      land right after `writeIndex` and nothing before it changes. */
  method ReadSome(p: RedisParser, min: nat) returns (q: RedisParser, ok: bool)
    requires p.Valid() && min >= 1
    ensures q.Valid() && q.parsePosition == p.parsePosition
    ensures ok <==> min <= |p.reader.data|
    ensures ok ==> q.writeIndex >= p.writeIndex + min && q.Seen() == p.Seen()
    ensures !ok ==> q.writeIndex == p.writeIndex && q.reader.data == []
    ensures !ok ==> p.writeIndex + |p.reader.data| <= |q.buffer|
                    && q.buffer[..p.writeIndex + |p.reader.data|] == p.Seen()
    // A failed read adds only the last bytes of the connection and zeroed space.
    ensures !ok ==> forall b :: b in q.buffer ==> b in p.buffer || b in p.reader.data || b == 0
    // A read leaves the free space after what it wrote as it was, or zeroed.
    ensures ok ==> forall b :: b in q.buffer[q.writeIndex..] ==> b in p.buffer[p.writeIndex..] || b == 0
  {
    var q1 := RequestSpace(p, min);
    var rr := ReadAtLeast(q1.reader, |q1.buffer| - q1.writeIndex, min);
    var wi := q1.writeIndex;
    var buf := q1.buffer[..wi] + rr.got + q1.buffer[wi + |rr.got|..];
    assert buf[..wi] == p.buffer[..wi];
    assert buf[..wi + |rr.got|] == p.buffer[..wi] + rr.got;
    if rr.ok {
      SpareBytes(p.buffer, q1.buffer, wi, rr.got);
      return q1.(buffer := buf, writeIndex := wi + |rr.got|, reader := rr.rest), true;
    }
    GrownBytes(p.buffer, q1.buffer, wi, rr.got);
    return q1.(buffer := buf, reader := rr.rest), false;
  }

  /** The free space after the bytes written into a grown buffer comes from the
      old buffer's free space or from the zeroed space. */
  lemma SpareBytes(prev: seq<byte>, grown: seq<byte>, wi: nat, got: seq<byte>)
    requires wi + |got| <= |grown| && wi <= |prev| <= |grown| && grown[..|prev|] == prev
    requires forall k :: |prev| <= k < |grown| ==> grown[k] == 0
    ensures forall b :: b in (grown[..wi] + got + grown[wi + |got|..])[wi + |got|..] ==> b in prev[wi..] || b == 0
  {
    var buf := grown[..wi] + got + grown[wi + |got|..];
    assert buf[wi + |got|..] == grown[wi + |got|..];
    forall b | b in grown[wi + |got|..]
      ensures b in prev[wi..] || b == 0
    {
      var k :| wi + |got| <= k < |grown| && grown[k] == b;
      if k < |prev| {
        assert b == prev[wi..][k - wi];
      }
    }
  }

  /** Bytes written over a grown buffer come from the old buffer, from what was
      written, or from the zeroed space. */
  lemma GrownBytes(prev: seq<byte>, grown: seq<byte>, wi: nat, got: seq<byte>)
    requires wi + |got| <= |grown| && |prev| <= |grown| && grown[..|prev|] == prev
    requires forall k :: |prev| <= k < |grown| ==> grown[k] == 0
    ensures forall b :: b in grown[..wi] + got + grown[wi + |got|..] ==> b in prev || b in got || b == 0
  {
  }

  /** `requireNBytes(num)`: at least `num` unconsumed bytes are buffered afterwards,
      reading only when fewer are; `parsePosition` never moves. It fails exactly
      when the connection cannot supply them. */
  method RequireNBytes(p: RedisParser, num: nat) returns (q: RedisParser, ok: bool)
    requires p.Valid()
    ensures q.Valid() && q.parsePosition == p.parsePosition
    ensures ok <==> num <= p.writeIndex - p.parsePosition + |p.reader.data|
    ensures ok ==> q.writeIndex - q.parsePosition >= num && q.Seen() == p.Seen()
    ensures !ok ==> q.reader.data == [] && p.writeIndex + |p.reader.data| <= |q.buffer|
                    && q.buffer[..p.writeIndex + |p.reader.data|] == p.Seen()
  {
    var a := p.writeIndex - p.parsePosition;
    if a >= num {
      return p, true;
    }
    var q1, ok1 := ReadSome(p, num - a);
    return q1, ok1;
  }

  lemma ReadFailureConsumed(p: RedisParser, q: RedisParser, s: seq<byte>)
    requires Tracks(p, s) && q.Valid() && q.reader.data == []
    requires |s| <= |q.buffer| && q.buffer[..|s|] == s
    ensures Consumed(q, s)
  {
  }

  /** `reset`: both cursors back to 0; the buffer and the connection are kept. */
  function Reset(p: RedisParser): (q: RedisParser)
    ensures q.Valid() && q.parsePosition == 0 && q.writeIndex == 0
    ensures q.buffer == p.buffer && q.reader == p.reader
  {
    p.(parsePosition := 0, writeIndex := 0)
  }

  lemma ResetConsumed(p: RedisParser, s: seq<byte>)
    requires Consumed(p, s)
    ensures Consumed(Reset(p), s)
  {
  }

  /** `readNumber`: an optional sign byte, then the digit scan. It agrees with
      `ReadNumberAt` on the stream, however the reads are chunked. */
  method ReadNumber(p: RedisParser, ghost s: seq<byte>) returns (q: RedisParser, n: int, st: Status)
    requires Tracks(p, s)
    ensures Consumed(q, s)
    ensures st.Ok? ==> Tracks(q, s)
    ensures ReadNumberAt(s, p.parsePosition) == Outcome(n, q, st)
  {
    var q1, ok := RequireNBytes(p, 1);
    if !ok {
      ReadFailureConsumed(p, q1, s);
      return q1, 0, Fail(StreamError);
    }
    TracksAt(q1, s, q1.parsePosition);
    var neg := false;
    if q1.buffer[q1.parsePosition] == MINUS {
      neg := true;
      q1 := q1.(parsePosition := q1.parsePosition + 1);
    } else if q1.buffer[q1.parsePosition] == PLUS {
      q1 := q1.(parsePosition := q1.parsePosition + 1);
    }
    var startpos := q1.parsePosition;
    assert startpos == SignEnd(s, p.parsePosition);
    var q2, num, st2 := ScanDigits(q1, s);
    if st2.Fail? {
      return q2, 0, st2;
    }
    if q2.parsePosition == startpos {
      return q2, 0, Fail(ExpectNumber);
    }
    return q2, if neg then NegInt64(ToInt64(num)) else ToInt64(num), Ok;
  }

  /** The scanning loop of `readNumber`: consumes the maximal digit run at
      `parsePosition`, reading more whenever the buffered bytes are all digits,
      and accumulates the run as a Go uint64. It fails only when the stream ends
      inside the run. */
  method ScanDigits(p: RedisParser, ghost s: seq<byte>) returns (q: RedisParser, num: nat, st: Status)
    requires Tracks(p, s)
    ensures Consumed(q, s)
    ensures st.Ok? <==> DigitRunEnd(s, p.parsePosition) < |s|
    ensures st.Fail? ==> st.err == StreamError
    ensures st.Ok? ==> && Tracks(q, s)
                       && q.parsePosition == DigitRunEnd(s, p.parsePosition)
                       && num == WrapU64Digits(s[p.parsePosition..q.parsePosition])
  {
    q := p;
    num := 0;
    var startpos := p.parsePosition;
    while true
      invariant Tracks(q, s)
      invariant startpos <= q.parsePosition
      invariant AllDigits(s[startpos..q.parsePosition])
      invariant num == WrapU64Digits(s[startpos..q.parsePosition])
      decreases |q.reader.data|
    {
      var q1, num1, stopped := ScanBuffered(q, s, startpos, num);
      q, num := q1, num1;
      if stopped {
        break;
      }
      var rq, rok := ReadSome(q, 1);
      if !rok {
        assert q.writeIndex == |s|;
        DigitRunEndAll(s, startpos);
        ReadFailureConsumed(q, rq, s);
        return rq, 0, Fail(StreamError);
      }
      assert |rq.reader.data| < |q.reader.data| by {
        assert |rq.Seen()| == rq.writeIndex + |rq.reader.data|;
        assert |q.Seen()| == q.writeIndex + |q.reader.data|;
      }
      q := rq;
    }
    TracksAt(q, s, q.parsePosition);
    RunDigits(s, startpos, q.parsePosition);
    DigitRunEndIs(s, startpos, q.parsePosition);
    TracksConsumed(q, s);
    st := Ok;
  }

  /** The inner `for` of `readNumber`: consumes the buffered digits from
      `parsePosition` on. It stops on a buffered non-digit (`stopped`), or
      otherwise when every buffered byte has been consumed. */
  method ScanBuffered(p: RedisParser, ghost s: seq<byte>, ghost startpos: nat, num0: nat)
    returns (q: RedisParser, num: nat, stopped: bool)
    requires Tracks(p, s) && startpos <= p.parsePosition
    requires AllDigits(s[startpos..p.parsePosition])
    requires num0 == WrapU64Digits(s[startpos..p.parsePosition])
    ensures Tracks(q, s) && q.writeIndex == p.writeIndex && q.reader == p.reader
    ensures p.parsePosition <= q.parsePosition
    ensures AllDigits(s[startpos..q.parsePosition])
    ensures num == WrapU64Digits(s[startpos..q.parsePosition])
    ensures stopped ==> q.parsePosition < q.writeIndex && !IsDigit(s[q.parsePosition])
    ensures !stopped ==> q.parsePosition == q.writeIndex
  {
    q := p;
    num := num0;
    var i := q.parsePosition;
    while i < q.writeIndex
      invariant i == q.parsePosition
      invariant Tracks(q, s) && q.writeIndex == p.writeIndex && q.reader == p.reader
      invariant p.parsePosition <= q.parsePosition
      invariant AllDigits(s[startpos..q.parsePosition])
      invariant num == WrapU64Digits(s[startpos..q.parsePosition])
      decreases q.writeIndex - i
    {
      var c := q.buffer[q.parsePosition];
      TracksAt(q, s, q.parsePosition);
      if IsDigit(c) {
        DigitStep(s, startpos, q.parsePosition);
        num := (num * 10 + DigitValue(c)) % TWO64;
        q := q.(parsePosition := q.parsePosition + 1);
      } else {
        return q, num, true;
      }
      i := i + 1;
    }
    stopped := false;
  }

  /** The digits of a run, indexed from the start of the stream. */
  lemma RunDigits(s: seq<byte>, i: nat, j: nat)
    requires i <= j <= |s| && AllDigits(s[i..j])
    ensures forall k :: i <= k < j ==> IsDigit(s[k])
  {
    forall k | i <= k < j
      ensures IsDigit(s[k])
    {
      assert s[k] == s[i..j][k - i];
    }
  }

  lemma DigitStep(s: seq<byte>, a: nat, b: nat)
    requires a <= b < |s| && AllDigits(s[a..b]) && IsDigit(s[b])
    ensures AllDigits(s[a..b + 1])
    ensures WrapU64Digits(s[a..b + 1]) == (WrapU64Digits(s[a..b]) * 10 + DigitValue(s[b])) % TWO64
  {
    var run := s[a..b + 1];
    forall k | 0 <= k < |run| - 1
      ensures run[k] == s[a..b][k]
    {
    }
    assert run[..|run| - 1] == s[a..b];
    assert run[|run| - 1] == s[b];
  }

  /** A digit run reaching the end of the stream has its end there. */
  lemma {:induction false} DigitRunEndAll(s: seq<byte>, i: nat)
    requires i <= |s| && AllDigits(s[i..])
    ensures DigitRunEnd(s, i) == |s|
    decreases |s| - i
  {
    if i < |s| {
      assert IsDigit(s[i..][0]);
      assert s[i + 1..] == s[i..][1..];
      DigitRunEndAll(s, i + 1);
    }
  }

  /** `discardNewLine`: advances by exactly two bytes when they are CR LF;
      otherwise `ExpectNewLine` with nothing consumed (or a stream error when two
      more bytes cannot be had). */
  method DiscardNewLine(p: RedisParser, ghost s: seq<byte>) returns (q: RedisParser, st: Status)
    requires Tracks(p, s)
    ensures Consumed(q, s)
    ensures st.Ok? ==> Tracks(q, s)
    ensures NewLineAt(s, p.parsePosition) == Outcome((), q, st)
  {
    var q1, ok := RequireNBytes(p, 2);
    if !ok {
      ReadFailureConsumed(p, q1, s);
      return q1, Fail(StreamError);
    }
    TracksAt(q1, s, q1.parsePosition);
    TracksAt(q1, s, q1.parsePosition + 1);
    TracksConsumed(q1, s);
    if q1.buffer[q1.parsePosition] == CR && q1.buffer[q1.parsePosition + 1] == LF {
      return q1.(parsePosition := q1.parsePosition + 2), Ok;
    }
    return q1, Fail(ExpectNewLine);
  }

  /** One iteration of `parseBinary`'s element loop: the header, then the body.
      It agrees with `ElementAt` on the stream. */
  method ParseElement(p: RedisParser, ghost s: seq<byte>) returns (q: RedisParser, a: Arg, st: Status)
    requires Tracks(p, s)
    ensures Consumed(q, s)
    ensures st.Ok? ==> Tracks(q, s)
    ensures ElementAt(s, p.parsePosition) == Outcome(a, q, st)
  {
    var q1, plen, st1 := ParseHeader(p, s);
    if st1.Fail? {
      return q1, Null, st1;
    }
    var q2, a2, st2 := ParseBody(q1, s, plen);
    return q2, a2, st2;
  }

  /** The `$` check and the length of one element. */
  method ParseHeader(p: RedisParser, ghost s: seq<byte>) returns (q: RedisParser, plen: int, st: Status)
    requires Tracks(p, s)
    ensures Consumed(q, s)
    ensures st.Ok? ==> Tracks(q, s)
    ensures HeaderAt(s, p.parsePosition) == Outcome(plen, q, st)
  {
    var q1, ok := RequireNBytes(p, 1);
    if !ok {
      ReadFailureConsumed(p, q1, s);
      return q1, 0, Fail(StreamError);
    }
    TracksAt(q1, s, q1.parsePosition);
    if q1.buffer[q1.parsePosition] != DOLLAR {
      TracksConsumed(q1, s);
      return q1, 0, Fail(ExpectTypeChar);
    }
    var q2, n, st2 := ReadNumber(q1.(parsePosition := q1.parsePosition + 1), s);
    return q2, n, st2;
  }

  /** The rest of an element once its length `plen` is known: the CR LF after
      the length, the body the length selects, and the CR LF after the body. */
  method ParseBody(p: RedisParser, ghost s: seq<byte>, plen: int) returns (q: RedisParser, a: Arg, st: Status)
    requires Tracks(p, s)
    ensures Consumed(q, s)
    ensures st.Ok? ==> Tracks(q, s)
    ensures AfterLength(s, plen, p.parsePosition) == Outcome(a, q, st)
  {
    var q1, st1 := DiscardNewLine(p, s);
    if st1.Fail? {
      return q1, Null, st1;
    }
    var q2, a2, st2 := ParseBulkBody(q1, s, plen);
    if st2.Fail? {
      return q2, Null, st2;
    }
    var q3, st3 := DiscardNewLine(q2, s);
    return q3, a2, st3;
  }

  /** The body of a bulk element: a nil slot for `-1`, an empty string for `0`,
      otherwise exactly `plen` bytes (up to `MaxBulkSize`), read as needed. */
  method ParseBulkBody(p: RedisParser, ghost s: seq<byte>, plen: int) returns (q: RedisParser, a: Arg, st: Status)
    requires Tracks(p, s)
    ensures Consumed(q, s)
    ensures st.Ok? ==> Tracks(q, s)
    ensures BulkBody(s, plen, p.parsePosition) == Outcome(a, q, st)
  {
    if plen == -1 {
      TracksConsumed(p, s);
      return p, Null, Ok;
    } else if plen == 0 {
      TracksConsumed(p, s);
      return p, Bulk([]), Ok;
    } else if plen < 0 || plen > MaxBulkSize {
      TracksConsumed(p, s);
      return p, Null, Fail(InvalidBulkSize);
    }
    var q1, a1, st1 := ReadBody(p, s, plen);
    return q1, a1, st1;
  }

  /** A body of `0 < plen <= MaxBulkSize` bytes, read into the buffer as needed. */
  method ReadBody(p: RedisParser, ghost s: seq<byte>, plen: int) returns (q: RedisParser, a: Arg, st: Status)
    requires Tracks(p, s) && 0 < plen <= MaxBulkSize
    ensures Consumed(q, s)
    ensures st.Ok? ==> Tracks(q, s)
    ensures BulkBody(s, plen, p.parsePosition) == Outcome(a, q, st)
  {
    var q1, ok := RequireNBytes(p, plen);
    if !ok {
      BodyShort(p, q1, s, plen);
      return q1, Null, Fail(StreamError);
    }
    var pos := q1.parsePosition;
    BodyInBuffer(q1, s, plen);
    return q1.(parsePosition := pos + plen), Bulk(q1.buffer[pos..pos + plen]), Ok;
  }

  /** Fewer than `plen` bytes left in the stream: the body is cut short. */
  lemma BodyShort(p: RedisParser, q1: RedisParser, s: seq<byte>, plen: int)
    requires Tracks(p, s) && 0 < plen <= MaxBulkSize
    requires q1.Valid() && q1.parsePosition == p.parsePosition
    requires plen > p.writeIndex - p.parsePosition + |p.reader.data|
    requires q1.reader.data == [] && |s| <= |q1.buffer| && q1.buffer[..|s|] == s
    ensures Consumed(q1, s)
    ensures BulkBody(s, plen, p.parsePosition) == Outcome(Null, q1, Fail(StreamError))
  {
    ReadFailureConsumed(p, q1, s);
  }

  /** `plen` buffered bytes at the parse position are the body's bytes. */
  lemma BodyInBuffer(q1: RedisParser, s: seq<byte>, plen: int)
    requires Tracks(q1, s) && 0 < plen <= MaxBulkSize
    requires q1.writeIndex - q1.parsePosition >= plen
    ensures var pos := q1.parsePosition;
            var q2 := q1.(parsePosition := pos + plen);
            && Tracks(q2, s) && Consumed(q2, s)
            && BulkBody(s, plen, pos) == Outcome(Bulk(q1.buffer[pos..pos + plen]), q2, Ok)
  {
    var pos := q1.parsePosition;
    var wi := q1.writeIndex;
    TracksConsumed(q1, s);
    assert q1.buffer[pos..pos + plen] == q1.buffer[..wi][pos..pos + plen];
    assert s[pos..pos + plen] == s[..wi][pos..pos + plen];
    TracksConsumed(q1.(parsePosition := pos + plen), s);
  }

  /** The spec-level reading of a decoding step's results: the value and the
      position reached on success, the error otherwise. */
  function Outcome<T>(v: T, q: RedisParser, st: Status): Parse<T> {
    match st
    case Ok => Parsed(v, q.parsePosition)
    case Fail(e) => Failed(e)
  }

  /** `parseBinary`: the multibulk path, entered on a `*` at `parsePosition`.
      It agrees with `DecodeMultibulk` on the stream, however the reads are chunked. */
  method ParseBinary(p: RedisParser, ghost s: seq<byte>) returns (q: RedisParser, res: Decoded)
    requires Tracks(p, s) && p.parsePosition == 0 && p.writeIndex >= 1 && p.buffer[0] == STAR
    ensures Consumed(q, s)
    ensures s != [] && s[0] == STAR
    ensures res == Decode(s)
    ensures DecodeMultibulk(s).Parsed? <==> !res.DecodeFailure?
    ensures !res.DecodeFailure? ==> Tracks(q, s) && q.parsePosition == DecodeMultibulk(s).next
  {
    TracksAt(p, s, 0);
    var q1, numArg, st1 := ParseCount(p, s);
    if st1.Fail? {
      return q1, DecodeFailure(st1.err);
    }
    var q2, res2 := ParseArrayBody(q1, s, numArg);
    return q2, res2;
  }

  /** The `*`, the element count and its CR LF. */
  method ParseCount(p: RedisParser, ghost s: seq<byte>) returns (q: RedisParser, numArg: int, st: Status)
    requires Tracks(p, s) && p.parsePosition == 0 && p.writeIndex >= 1 && p.buffer[0] == STAR
    requires s != [] && s[0] == STAR
    ensures Consumed(q, s)
    ensures st.Ok? ==> Tracks(q, s)
    ensures CountAt(s) == Outcome(numArg, q, st)
  {
    var q1, n, st1 := ReadNumber(p.(parsePosition := 1), s);
    if st1.Fail? {
      return q1, n, st1;
    }
    var q2, st2 := DiscardNewLine(q1, s);
    return q2, n, st2;
  }

  /** Everything after the array header: the null array's extra CR LF, the
      element-count check, or the elements. */
  method ParseArrayBody(p: RedisParser, ghost s: seq<byte>, numArg: int) returns (q: RedisParser, res: Decoded)
    requires Tracks(p, s)
    ensures Consumed(q, s)
    ensures match ArrayBody(s, numArg, p.parsePosition)
            case Parsed(d, next) => res == d && Tracks(q, s) && q.parsePosition == next
            case Failed(e) => res == DecodeFailure(e)
  {
    if numArg == -1 {
      var q1, st1 := DiscardNewLine(p, s);
      return q1, if st1.Fail? then DecodeFailure(st1.err) else NullFrame;
    } else if numArg < -1 || numArg > MaxNumArg {
      TracksConsumed(p, s);
      return p, DecodeFailure(InvalidNumArg);
    } else {
      var q1, argv, st := ParseArgs(p, s, numArg);
      return q1, if st.Fail? then DecodeFailure(st.err) else Frame(Command(argv));
    }
  }

  /** The element loop of `parseBinary`: `n` elements, one after the other;
      the first failing element ends it. */
  method ParseArgs(p: RedisParser, ghost s: seq<byte>, n: nat) returns (q: RedisParser, argv: seq<Arg>, st: Status)
    requires Tracks(p, s)
    ensures Consumed(q, s)
    ensures st.Ok? ==> Tracks(q, s)
    ensures ArgsAgree(s, p.parsePosition, n, Outcome(argv, q, st))
    decreases n, 1
  {
    if n == 0 {
      TracksConsumed(p, s);
      ArgsNone(s, p);
      return p, [], Ok;
    }
    var q1, a, st1 := ParseElement(p, s);
    if st1.Fail? {
      ArgsStop(s, p, q1, n, a, st1);
      return q1, [], st1;
    }
    var q2, argv2, st2 := ParseMore(p.parsePosition, q1, s, n, a);
    return q2, argv2, st2;
  }

  /** The rest of the loop once element `a`, starting at `pos`, has been parsed,
      ending at `q1`. */
  method ParseMore(ghost pos: nat, q1: RedisParser, ghost s: seq<byte>, n: nat, a: Arg) returns (q: RedisParser, argv: seq<Arg>, st: Status)
    requires n > 0 && pos <= |s| && Tracks(q1, s)
    requires ElementAt(s, pos) == Outcome(a, q1, Ok)
    ensures Consumed(q, s)
    ensures st.Ok? ==> Tracks(q, s)
    ensures ArgsAgree(s, pos, n, Outcome(argv, q, st))
    decreases n, 0
  {
    var m: nat := n - 1;
    var rest;
    q, rest, st := ParseArgs(q1, s, m);
    ArgsAfter(s, pos, q1, q, m, a, rest, st);
    argv := [a] + rest;
  }

  /** `n` elements decoded from `pos` give `o`. */
  ghost predicate ArgsAgree(s: seq<byte>, pos: nat, n: nat, o: Parse<seq<Arg>>)
    requires pos <= |s|
  {
    ArgsAt(s, pos, n) == o
  }

  /** No element asked for, none decoded. */
  lemma ArgsNone(s: seq<byte>, p: RedisParser)
    requires Tracks(p, s)
    ensures ArgsAgree(s, p.parsePosition, 0, Outcome([], p, Ok))
  {
  }

  /** A failing element ends the loop with its error. */
  lemma ArgsStop(s: seq<byte>, p: RedisParser, q1: RedisParser, n: nat, a: Arg, st1: Status)
    requires n > 0 && Tracks(p, s) && st1.Fail?
    requires ElementAt(s, p.parsePosition) == Outcome(a, q1, st1)
    ensures ArgsAgree(s, p.parsePosition, n, Outcome([], q1, st1))
  {
    ArgsStep(s, p.parsePosition, n);
  }

  /** A parsed element in front of the elements parsed after it. */
  lemma ArgsAfter(s: seq<byte>, pos: nat, q1: RedisParser, q2: RedisParser, m: nat, a: Arg, rest: seq<Arg>, st2: Status)
    requires pos <= |s| && q1.parsePosition <= |s|
    requires ElementAt(s, pos) == Outcome(a, q1, Ok)
    requires ArgsAgree(s, q1.parsePosition, m, Outcome(rest, q2, st2))
    ensures ArgsAgree(s, pos, m + 1, Outcome([a] + rest, q2, st2))
  {
    ArgsCons(s, pos, m + 1, a, q1.parsePosition, Outcome(rest, q2, st2));
  }

  // ---------------------------------------------------------------------------
  // The inline (telnet) path and the entry point

  /** `parseTelnet`, with the line feed searched for among the bytes read for
      this command only: reads until one of them is a line feed, failing with
      `LineTooLong` once a read leaves more than `MaxTelnetLine` bytes buffered.
      On success the command is the line of `s` up to its first line feed. */
  method ParseTelnet(p: RedisParser, ghost s: seq<byte>) returns (q: RedisParser, res: Decoded)
    requires Tracks(p, s) && p.parsePosition == 0 && p.writeIndex >= 1 && s[0] != LF
    ensures Consumed(q, s) && q.parsePosition == 0 && q.writeIndex == 0
    ensures TelnetAnswer(s, |s| - |q.reader.data|, res)
  {
    var q1, nl, st := ScanLine(p, s);
    if st.Fail? {
      return Reset(q1), DecodeFailure(st.err);
    }
    TracksAt(q1, s, nl);
    assert q1.buffer[..nl - 1] == s[..nl - 1] by {
      assert q1.buffer[..q1.writeIndex] == s[..q1.writeIndex];
    }
    TracksConsumed(q1, s);
    return Reset(q1), Frame(Command(InlineArgs(q1.buffer[..nl - 1])));
  }

  /** The answer of the inline path after it has consumed `c` bytes of `s`. */
  ghost predicate TelnetAnswer(s: seq<byte>, c: int, res: Decoded)
    requires s != [] && s[0] != LF
  {
    && (res.Frame? || res == DecodeFailure(StreamError) || res == DecodeFailure(LineTooLong))
    && (res.Frame? ==> LF in s && IndexOf(s, LF) < c && res == InlineAt(s))
    && (res == DecodeFailure(StreamError) <==> LF !in s && res != DecodeFailure(LineTooLong))
    && (res == DecodeFailure(LineTooLong) ==> c > MaxTelnetLine)
  }

  /** The search loop of `parseTelnet`: on success the first line feed of `s`
      is buffered, at `nl`. */
  method ScanLine(p: RedisParser, ghost s: seq<byte>) returns (q: RedisParser, nl: int, st: Status)
    requires Tracks(p, s) && p.parsePosition == 0 && p.writeIndex >= 1 && s[0] != LF
    ensures Consumed(q, s) && q.parsePosition == 0
    ensures st == Ok || st == Fail(StreamError) || st == Fail(LineTooLong)
    ensures st.Ok? ==> Tracks(q, s) && LF in s && nl == IndexOf(s, LF) && 0 < nl < q.writeIndex
    ensures st == Fail(StreamError) <==> LF !in s && st != Fail(LineTooLong)
    ensures st == Fail(LineTooLong) ==> |s| - |q.reader.data| > MaxTelnetLine
  {
    q := p;
    nl := IndexOf(q.buffer[..q.writeIndex], LF);
    while nl == -1
      invariant Tracks(q, s) && q.parsePosition == 0 && q.writeIndex >= 1
      invariant nl == IndexOf(q.buffer[..q.writeIndex], LF)
      decreases |q.reader.data|
    {
      var rq, rok := ReadSome(q, 1);
      if !rok {
        assert q.buffer[..q.writeIndex] == s;
        ReadFailureConsumed(q, rq, s);
        return rq, -1, Fail(StreamError);
      }
      assert |rq.reader.data| < |q.reader.data| by {
        assert |rq.Seen()| == rq.writeIndex + |rq.reader.data|;
        assert |q.Seen()| == q.writeIndex + |q.reader.data|;
      }
      q := rq;
      if q.writeIndex > MaxTelnetLine {
        TracksConsumed(q, s);
        return q, -1, Fail(LineTooLong);
      }
      nl := IndexOf(q.buffer[..q.writeIndex], LF);
    }
    ghost var line := q.buffer[..q.writeIndex];
    assert s == line + s[q.writeIndex..];
    IndexOfPrefix(line, s[q.writeIndex..], LF);
    TracksAt(q, s, 0);
    TracksConsumed(q, s);
    st := Ok;
  }

  /** `parseTelnet` as written: the line feed is searched for in the whole
      backing buffer, so a line feed left there by an earlier, longer command
      ends the search before the current line has arrived. Whenever the buffer
      holds a line feed on entry, nothing is read and the command is cut from
      the buffer as it stands. */
  method ParseTelnetAsWritten(p: RedisParser, ghost s: seq<byte>) returns (q: RedisParser, res: Decoded)
    requires Tracks(p, s) && p.parsePosition == 0 && p.writeIndex >= 1 && s[0] != LF
    ensures Consumed(q, s) && q.parsePosition == 0 && q.writeIndex == 0
    ensures res.Frame? || res == DecodeFailure(StreamError) || res == DecodeFailure(LineTooLong)
    ensures res.Frame? ==> LF in q.buffer && 0 < IndexOf(q.buffer, LF)
                           && res == Frame(Command(InlineArgs(q.buffer[..IndexOf(q.buffer, LF) - 1])))
    ensures LF in p.buffer ==> q.reader == p.reader && q.buffer == p.buffer && res.Frame?
    // It fails only when the connection runs dry with no line feed anywhere in
    // the buffer, or once a read leaves too many bytes buffered.
    ensures res == DecodeFailure(StreamError) ==> LF !in s && LF !in q.buffer && q.reader.data == []
    ensures res == DecodeFailure(LineTooLong) ==> |s| - |q.reader.data| > MaxTelnetLine
    // With no stale line feed past `writeIndex`, the answer is the stream's first line.
    ensures LF !in p.buffer[p.writeIndex..] && res.Frame? ==> LF in s && res == InlineAt(s)
  {
    var q1, nl, st := ScanStale(p, s);
    ResetConsumed(q1, s);
    q := Reset(q1);
    if st.Fail? {
      res := DecodeFailure(st.err);
    } else {
      if LF !in p.buffer[p.writeIndex..] {
        FirstLineFeed(q1, s, nl);
      }
      res := Frame(Command(InlineArgs(q.buffer[..nl - 1])));
    }
  }

  /** The search loop of `parseTelnet` as written: on success the backing
      buffer holds a line feed, first at `nl`, and that buffer is the one on
      entry whenever it held a line feed already. */
  method ScanStale(p: RedisParser, ghost s: seq<byte>) returns (q: RedisParser, nl: int, st: Status)
    requires Tracks(p, s) && p.parsePosition == 0 && p.writeIndex >= 1 && s[0] != LF
    ensures Consumed(q, s) && q.parsePosition == 0
    ensures st == Ok || st == Fail(StreamError) || st == Fail(LineTooLong)
    ensures st.Ok? ==> Tracks(q, s) && LF in q.buffer && nl == IndexOf(q.buffer, LF) && nl > 0
    ensures LF in p.buffer ==> q == p && st.Ok?
    ensures st == Fail(StreamError) ==> LF !in s && LF !in q.buffer && q.reader.data == []
    ensures st == Fail(LineTooLong) ==> |s| - |q.reader.data| > MaxTelnetLine
    ensures st.Ok? && LF !in p.buffer[p.writeIndex..] ==> LF !in q.buffer[q.writeIndex..]
  {
    q := p;
    TracksAt(q, s, 0);
    nl := IndexOf(q.buffer, LF);
    while nl == -1
      invariant Tracks(q, s) && q.parsePosition == 0 && q.writeIndex >= 1 && q.buffer[0] == s[0]
      invariant nl == IndexOf(q.buffer, LF)
      invariant LF in p.buffer ==> q == p
      invariant LF !in p.buffer[p.writeIndex..] ==> LF !in q.buffer[q.writeIndex..]
      decreases |q.reader.data|
    {
      var rq, rok := ReadSome(q, 1);
      if !rok {
        ReadFailureConsumed(q, rq, s);
        assert LF !in rq.buffer;
        return rq, -1, Fail(StreamError);
      }
      assert |rq.reader.data| < |q.reader.data| by {
        assert |rq.Seen()| == rq.writeIndex + |rq.reader.data|;
        assert |q.Seen()| == q.writeIndex + |q.reader.data|;
      }
      q := rq;
      TracksAt(q, s, 0);
      if q.writeIndex > MaxTelnetLine {
        TracksConsumed(q, s);
        return q, -1, Fail(LineTooLong);
      }
      nl := IndexOf(q.buffer, LF);
    }
    TracksConsumed(q, s);
    st := Ok;
  }

  /** A line feed found only among the bytes read is the stream's first line feed,
      and the line before it is the stream's. */
  lemma FirstLineFeed(q: RedisParser, s: seq<byte>, nl: int)
    requires Tracks(q, s) && nl == IndexOf(q.buffer, LF) && nl > 0 && s != [] && s[0] != LF
    requires LF !in q.buffer[q.writeIndex..]
    ensures nl < q.writeIndex && LF in s && IndexOf(s, LF) == nl
    ensures InlineAt(s) == Frame(Command(InlineArgs(q.buffer[..nl - 1])))
  {
    assert nl < q.writeIndex;
    assert s == q.buffer[..q.writeIndex] + q.reader.data;
    LineHead(q.buffer, q.writeIndex, q.reader.data, nl);
  }

  /** The first line feed of a buffered prefix is the first of the whole stream. */
  lemma LineHead(buf: seq<byte>, w: nat, rest: seq<byte>, nl: nat)
    requires 0 < nl < w <= |buf| && buf[nl] == LF && LF !in buf[..nl]
    ensures var s := buf[..w] + rest; LF in s && IndexOf(s, LF) == nl && s[..nl - 1] == buf[..nl - 1]
  {
    var s := buf[..w] + rest;
    assert s[..nl] == buf[..nl];
    IndexOfAt(s, nl, LF);
    assert s[..nl - 1] == buf[..nl - 1];
  }

  /** A stale line feed splices two commands: after `GET a` CR LF, a `PING` CR LF
      whose first read delivers only `PI` is decoded from the buffer `PIT a` CR LF
      as the two arguments `PIT` and `a`, while its own line is the single
      argument `PING`. */
  lemma StaleNewline()
    ensures var s: seq<byte> := [80, 73, 78, 71, CR, LF];
            var buf := [80, 73, 84, SPACE, 97, CR, LF] + Zeros(ReadBufferInitSize - 7);
            var p := RedisParser(buf, 0, 2, Reader(s[2..], []));
            && Tracks(p, s) && s[0] != LF && LF in p.buffer
            && InlineArgs(buf[..IndexOf(buf, LF) - 1]) == [Bulk([80, 73, 84]), Bulk([97])]
            && LF in s && InlineAt(s) == Frame(Command([Bulk([80, 73, 78, 71])]))
  {
    var s: seq<byte> := [80, 73, 78, 71, CR, LF];
    var buf := [80, 73, 84, SPACE, 97, CR, LF] + Zeros(ReadBufferInitSize - 7);
    StaleBuffer(s, buf);
    assert buf[..5] == [80, 73, 84, SPACE, 97];
    StaleCut();
    PingLine(s);
  }

  lemma StaleBuffer(s: seq<byte>, buf: seq<byte>)
    requires s == [80, 73, 78, 71, CR, LF]
    requires buf == [80, 73, 84, SPACE, 97, CR, LF] + Zeros(ReadBufferInitSize - 7)
    ensures Tracks(RedisParser(buf, 0, 2, Reader(s[2..], [])), s)
    ensures LF in buf && IndexOf(buf, LF) == 6
  {
    var line: seq<byte> := [80, 73, 84, SPACE, 97, CR, LF];
    assert buf[..2] + s[2..] == s;
    assert IndexOf(line, LF) == 6;
    IndexOfPrefix(line, Zeros(ReadBufferInitSize - 7), LF);
  }

  lemma StaleCut()
    ensures InlineArgs([80, 73, 84, SPACE, 97]) == [Bulk([80, 73, 84]), Bulk([97])]
  {
    StaleSplit();
  }

  lemma StaleSplit()
    ensures SplitSpaces([80, 73, 84, SPACE, 97]) == [[80, 73, 84], [97]]
  {
    var cut: seq<byte> := [80, 73, 84, SPACE, 97];
    assert cut[..3] == [80, 73, 84] && cut[4..] == [97];
    IndexOfAt(cut, 3, SPACE);
    var tail: seq<byte> := [97];
    assert SPACE !in tail;
    assert SplitSpaces(tail) == [tail];
  }

  lemma PingLine(s: seq<byte>)
    requires s == [80, 73, 78, 71, CR, LF]
    ensures LF in s && s[0] != LF && InlineAt(s) == Frame(Command([Bulk([80, 73, 78, 71])]))
  {
    assert s[..5] == [80, 73, 78, 71, CR];
    IndexOfAt(s, 5, LF);
    assert s[..4] == [80, 73, 78, 71];
    var word: seq<byte> := [80, 73, 78, 71];
    assert SPACE !in word;
    assert SplitSpaces(word) == [word];
  }

  /** `ReadCommand` as written: the inline path searches the whole backing
      buffer, so an inline answer is cut from whatever the buffer holds before
      its first line feed, stale bytes included. The multibulk path is exact. */
  method ReadCommandAsWritten(p: RedisParser, ghost s: seq<byte>) returns (q: RedisParser, res: Decoded)
    requires p.Valid() && p.parsePosition == 0 && p.writeIndex == 0 && p.reader.data == s
    requires s == [] || s[0] != LF
    ensures Consumed(q, s) && q.parsePosition == 0 && q.writeIndex == 0
    ensures s == [] ==> res == DecodeFailure(StreamError) && q.reader.data == []
    ensures s != [] && s[0] == STAR ==> res == Decode(s)
    ensures s != [] && s[0] != STAR ==>
              res.Frame? || res == DecodeFailure(StreamError) || res == DecodeFailure(LineTooLong)
    ensures s != [] && s[0] != STAR && res.Frame? ==>
              && LF in q.buffer && 0 < IndexOf(q.buffer, LF)
              && res == Frame(Command(InlineArgs(q.buffer[..IndexOf(q.buffer, LF) - 1])))
    ensures s != [] && s[0] != STAR && res == DecodeFailure(StreamError) ==>
              LF !in s && LF !in q.buffer && q.reader.data == []
    ensures s != [] && s[0] != STAR && res == DecodeFailure(LineTooLong) ==>
              |s| - |q.reader.data| > MaxTelnetLine
    // With no line feed left in the buffer, the inline answer is the stream's first line.
    ensures s != [] && s[0] != STAR && LF !in p.buffer && res.Frame? ==> LF in s && res == InlineAt(s)
  {
    assert p.Seen() == s;
    assert p.buffer[p.writeIndex..] == p.buffer;
    var rq, rok := ReadSome(p, 1);
    if !rok {
      return rq, DecodeFailure(StreamError);
    }
    var q1 := rq;
    TracksAt(q1, s, 0);
    if q1.buffer[q1.parsePosition] == STAR {
      var q2, res2 := ParseBinary(q1, s);
      ResetConsumed(q2, s);
      return Reset(q2), res2;
    } else {
      var q2, res2 := ParseTelnetAsWritten(q1, s);
      return q2, res2;
    }
  }

  /** `ReadCommand` with the inline path corrected to search only the bytes
      read for this command: one read of at least one byte, then the multibulk
      path on a `*` and the inline path on anything else; the cursors are reset
      afterwards, so bytes read past the end of the command are dropped. On the
      multibulk path the answer is `Decode(s)` whatever the chunking of the
      reads; on the inline path it is the first line of `s`. */
  method ReadCommand(p: RedisParser, ghost s: seq<byte>) returns (q: RedisParser, res: Decoded)
    requires p.Valid() && p.parsePosition == 0 && p.writeIndex == 0 && p.reader.data == s
    requires s == [] || s[0] != LF
    ensures Consumed(q, s) && q.parsePosition == 0 && q.writeIndex == 0
    ensures s == [] ==> res == DecodeFailure(StreamError) && q.reader.data == []
    ensures s != [] && s[0] == STAR ==> res == Decode(s)
    ensures s != [] && s[0] == STAR && !res.DecodeFailure? ==>
              DecodeMultibulk(s).Parsed? && DecodeMultibulk(s).next <= |s| - |q.reader.data|
    ensures s != [] && s[0] != STAR ==> TelnetAnswer(s, |s| - |q.reader.data|, res)
  {
    assert p.Seen() == s;
    var rq, rok := ReadSome(p, 1);
    if !rok {
      return rq, DecodeFailure(StreamError);
    }
    var q1 := rq;
    TracksAt(q1, s, 0);
    if q1.buffer[q1.parsePosition] == STAR {
      var q2, res2 := ParseBinary(q1, s);
      ResetConsumed(q2, s);
      return Reset(q2), res2;
    } else {
      var q2, res2 := ParseTelnet(q1, s);
      ResetConsumed(q2, s);
      return Reset(q2), res2;
    }
  }
}

=== FILE: protocol.dfy ===
/** The values the request decoder produces: commands made of argument slots,
    the decoder's error values and the outcome of one `ReadCommand`. */
module Protocol {
  import opened Bytes

  const ReadBufferInitSize: nat := 1024
  const MaxNumArg: int := 20
  const MaxBulkSize: int := 65536
  const MaxTelnetLine: int := 1024

  /** One argument slot: a nil slice (null bulk) or a present, possibly empty, byte string. */
  datatype Arg = Null | Bulk(data: seq<byte>)

  /** Go's `string(arg)`: nil and empty both read as the empty string. */
  function ArgBytes(a: Arg): (s: seq<byte>)
    ensures a.Bulk? ==> s == a.data
    ensures a.Null? ==> s == []
  {
    match a
    case Null => []
    case Bulk(d) => d
  }

  datatype Command = Command(argv: seq<Arg>) {

    /** `Command.Get`: never fails; an index outside the argument list reads as nil. */
    function Get(index: int): (a: Arg)
      ensures 0 <= index < |argv| ==> a == argv[index]
      ensures (index < 0 || |argv| <= index) ==> a == Null
    {
      if 0 <= index < |argv| then argv[index] else Null
    }

    function ArgCount(): (n: nat)
      ensures n == |argv|
    {
      |argv|
    }
  }

  /** Every error `ReadCommand` can return. The first three are `*ProtocolError`
      values; the rest are plain errors, `StreamError` standing for whatever the
      underlying reader reports (EOF included). */
  datatype DecodeError =
    | ExpectNumber
    | ExpectNewLine
    | ExpectTypeChar
    | InvalidNumArg
    | InvalidBulkSize
    | LineTooLong
    | StreamError
  {
    predicate IsProtocolError() {
      ExpectNumber? || ExpectNewLine? || ExpectTypeChar?
    }

    /** The message a `*ProtocolError` carries. */
    function Message(): (m: seq<byte>)
      requires IsProtocolError()
      ensures |m| > 0
    {
      match this
      case ExpectNumber => Str("Expect Number")
      case ExpectNewLine => Str("Expect Newline")
      case ExpectTypeChar => Str("Expect TypeChar")
    }
  }

  /** What one `ReadCommand` returns: a command, the nil command of a null array
      (`*-1`) with no error, or an error. */
  datatype Decoded = Frame(cmd: Command) | NullFrame | DecodeFailure(err: DecodeError)

  /** Go's `error` result of an internal step: nil or an error value. */
  datatype Status = Ok | Fail(err: DecodeError)
}

=== FILE: roundtrip.dfy ===
/** The reply encoders against the request decoder: a present bulk array is
    decoded back to itself, while the encoder's null bulk and null array are not
    what the decoder expects (it wants one more CR LF after each). */
module RoundTrip {
  import opened Bytes
  import opened Decimal
  import opened Protocol
  import opened Frames
  import opened Encoder

  /** All elements present and no longer than the decoder accepts. */
  predicate Encodable(vals: seq<Arg>) {
    forall i :: 0 <= i < |vals| ==> vals[i].Bulk? && |vals[i].data| <= MaxBulkSize
  }

  /** `readNumber` reads back what `FormatInt` wrote, on the whole int64 range,
      as long as a non-digit follows. */
  lemma ReadNumberFormat(s: seq<byte>, pos: nat, v: int)
    requires IsInt64(v)
    requires pos + |FormatInt(v)| < |s| && s[pos..pos + |FormatInt(v)|] == FormatInt(v)
    requires !IsDigit(s[pos + |FormatInt(v)|])
    ensures ReadNumberAt(s, pos) == Parsed(v, pos + |FormatInt(v)|)
  {
    if v < 0 {
      ReadNegative(s, pos, v);
    } else {
      ReadNonNegative(s, pos, v);
    }
  }

  lemma ReadNegative(s: seq<byte>, pos: nat, v: int)
    requires IsInt64(v) && v < 0
    requires pos + |FormatInt(v)| < |s| && s[pos..pos + |FormatInt(v)|] == FormatInt(v)
    requires !IsDigit(s[pos + |FormatInt(v)|])
    ensures ReadNumberAt(s, pos) == Parsed(v, pos + |FormatInt(v)|)
  {
    FormatIntDigitsValue(v);
    var ds := Digits(-v);
    SliceSplit(s, pos, [MINUS], ds);
    SliceAt(s, pos, [MINUS], 0);
    ReadNumberRun(s, pos, pos + 1, ds);
  }

  lemma ReadNonNegative(s: seq<byte>, pos: nat, v: int)
    requires IsInt64(v) && v >= 0
    requires pos + |FormatInt(v)| < |s| && s[pos..pos + |FormatInt(v)|] == FormatInt(v)
    requires !IsDigit(s[pos + |FormatInt(v)|])
    ensures ReadNumberAt(s, pos) == Parsed(v, pos + |FormatInt(v)|)
  {
    FormatIntDigitsValue(v);
    var ds := Digits(v);
    SliceAt(s, pos, ds, 0);
    ReadNumberRun(s, pos, pos, ds);
  }

  /** `readNumber` over a sign (or none) and a digit run that a non-digit ends. */
  lemma ReadNumberRun(s: seq<byte>, pos: nat, start: nat, ds: seq<byte>)
    requires pos < |s| && start == SignEnd(s, pos)
    requires |ds| > 0 && AllDigits(ds) && start + |ds| < |s| && s[start..start + |ds|] == ds
    requires !IsDigit(s[start + |ds|])
    ensures ReadNumberAt(s, pos) == Parsed(Int64FromDigits(s[pos] == MINUS, ds), start + |ds|)
  {
    DigitRunAt(s, start, ds);
  }

  lemma DigitRunAt(s: seq<byte>, start: nat, ds: seq<byte>)
    requires AllDigits(ds) && start + |ds| < |s| && s[start..start + |ds|] == ds
    requires !IsDigit(s[start + |ds|])
    ensures DigitRunEnd(s, start) == start + |ds|
  {
    forall k | start <= k < start + |ds|
      ensures IsDigit(s[k])
    {
      SliceAt(s, start, ds, k - start);
    }
    DigitRunEndIs(s, start, start + |ds|);
  }

  /** An integer reply carries its value in the form `readNumber` reads. */
  lemma SendIntReadable(v: int, rest: seq<byte>)
    requires IsInt64(v)
    ensures ReadNumberAt(SendInt(v) + rest, 1) == Parsed(v, |SendInt(v)| - 2)
  {
    var out := SendInt(v) + rest;
    var f := FormatInt(v);
    assert out[1..1 + |f|] == f;
    assert out[1 + |f|] == CR;
    ReadNumberFormat(out, 1, v);
  }

  /** A status or error line ends at its CR LF exactly when the message holds
      no line feed; otherwise a reader stops inside the message. */
  lemma SimpleReplyLine(msg: seq<byte>)
    ensures LF !in msg <==> IndexOf(SendString(msg), LF) == |msg| + 2
    ensures LF !in msg <==> IndexOf(SendError(msg), LF) == |msg| + 2
    ensures LF in msg ==> IndexOf(SendString(msg), LF) == IndexOf(msg, LF) + 1
    ensures LF in msg ==> IndexOf(SendError(msg), LF) == IndexOf(msg, LF) + 1
  {
    LineEnd(PLUS, msg);
    LineEnd(MINUS, msg);
  }

  lemma LineEnd(kind: byte, msg: seq<byte>)
    requires kind != LF
    ensures var out := [kind] + msg + CRLF;
            && (LF !in msg <==> IndexOf(out, LF) == |msg| + 2)
            && (LF in msg ==> IndexOf(out, LF) == IndexOf(msg, LF) + 1)
  {
    var head := [kind] + msg;
    IndexOfCons(kind, msg, LF);
    if LF in msg {
      IndexOfPrefix(head, CRLF, LF);
    } else {
      IndexOfAfter(head, CRLF, LF);
    }
  }

  /** One present bulk of at most `MaxBulkSize` bytes, in the window
      `pos..end`, decodes back to itself as a request element. */
  lemma ElementRoundTrip(s: seq<byte>, pos: nat, d: seq<byte>, end: nat)
    requires |d| <= MaxBulkSize
    requires end == pos + |SendBulk(Bulk(d))| && end <= |s| && s[pos..end] == SendBulk(Bulk(d))
    ensures ElementAt(s, pos) == Parsed(Bulk(d), end)
  {
    BulkBytes(d);
    ElementBytes(s, pos, d, end);
  }

  /** The bytes of a present bulk: `$`, the length digits, CR LF, the value, CR LF. */
  lemma BulkBytes(d: seq<byte>)
    ensures SendBulk(Bulk(d)) == [DOLLAR] + (FormatInt(|d|) + (CRLF + (d + CRLF)))
  {
  }

  /** `ElementRoundTrip` on the bytes themselves. */
  lemma ElementBytes(s: seq<byte>, pos: nat, d: seq<byte>, end: nat)
    requires |d| <= MaxBulkSize
    requires end == pos + 1 + |FormatInt(|d|)| + |CRLF + (d + CRLF)| && end <= |s|
    requires s[pos..end] == [DOLLAR] + (FormatInt(|d|) + (CRLF + (d + CRLF)))
    ensures ElementAt(s, pos) == Parsed(Bulk(d), end)
  {
    var f := FormatInt(|d|);
    var p1 := pos + 1 + |f|;
    var tail := CRLF + (d + CRLF);
    HeaderRoundTrip(s, pos, |d|, tail, end);
    BulkTail(s, pos, f, tail, p1, end);
    BodyRoundTrip(s, p1, d, end);
  }

  /** `$`, the digits of `n` and a CR read back as the length `n`. */
  lemma HeaderRoundTrip(s: seq<byte>, pos: nat, n: nat, rest: seq<byte>, end: nat)
    requires n <= MaxBulkSize && rest != [] && rest[0] == CR
    requires end == pos + 1 + |FormatInt(n)| + |rest| && end <= |s|
    requires s[pos..end] == [DOLLAR] + (FormatInt(n) + rest)
    ensures HeaderAt(s, pos) == Parsed(n, pos + 1 + |FormatInt(n)|)
  {
    var f := FormatInt(n);
    var p1 := pos + 1 + |f|;
    SliceCut(s, pos, pos + 1, end, [DOLLAR], f + rest);
    SliceAt(s, pos, [DOLLAR], 0);
    SliceCut(s, pos + 1, p1, end, f, rest);
    SliceAt(s, p1, rest, 0);
    ReadNumberFormat(s, pos + 1, n);
  }

  /** What follows the length digits sits at `p1`. */
  lemma BulkTail(s: seq<byte>, pos: nat, f: seq<byte>, tail: seq<byte>, p1: nat, end: nat)
    requires end == pos + 1 + |f| + |tail| && end <= |s| && s[pos..end] == [DOLLAR] + (f + tail)
    requires p1 == pos + 1 + |f|
    ensures end == p1 + |tail| && s[p1..end] == tail
  {
    SliceCut(s, pos, pos + 1, end, [DOLLAR], f + tail);
    SliceCut(s, pos + 1, p1, end, f, tail);
  }

  /** The CR LF, the bytes and the CR LF after a length line read back as the bytes. */
  lemma BodyRoundTrip(s: seq<byte>, p1: nat, d: seq<byte>, end: nat)
    requires |d| <= MaxBulkSize
    requires end == p1 + |CRLF + (d + CRLF)| && end <= |s| && s[p1..end] == CRLF + (d + CRLF)
    ensures AfterLength(s, |d|, p1) == Parsed(Bulk(d), end)
  {
    var p2 := p1 + 2;
    var p3 := p2 + |d|;
    SliceCut(s, p1, p2, end, CRLF, d + CRLF);
    SliceAt(s, p1, CRLF, 0);
    SliceAt(s, p1, CRLF, 1);
    assert NewLineAt(s, p1) == Parsed((), p2);
    SliceCut(s, p2, p3, end, d, CRLF);
    SliceAt(s, p3, CRLF, 0);
    SliceAt(s, p3, CRLF, 1);
    assert BulkBody(s, |d|, p2) == Parsed(Bulk(d), p3);
    assert NewLineAt(s, p3) == Parsed((), end);
  }

  /** The bulks of a sequence of encodable values, in the window `pos..end`,
      decode back to the sequence. */
  lemma {:induction false} ArgsRoundTrip(s: seq<byte>, pos: nat, vals: seq<Arg>, end: nat)
    requires Encodable(vals)
    requires end == pos + |SendEach(vals)| && end <= |s| && s[pos..end] == SendEach(vals)
    ensures ArgsAt(s, pos, |vals|) == Parsed(vals, end)
    decreases |vals|
  {
    if vals == [] {
      assert SendEach(vals) == [];
    } else {
      var mid := pos + |SendBulk(vals[0])|;
      EachRest(s, pos, vals, mid, end);
      ArgsRoundTrip(s, mid, vals[1..], end);
      EachHead(s, pos, vals, mid, end);
      EachCons(s, pos, vals, mid, end);
    }
  }

  /** The window of a non-empty `SendEach` holds the first bulk, then the others. */
  lemma EachSplit(s: seq<byte>, pos: nat, vals: seq<Arg>, mid: nat, end: nat)
    requires vals != []
    requires pos + |SendEach(vals)| <= |s| && s[pos..pos + |SendEach(vals)|] == SendEach(vals)
    requires mid == pos + |SendBulk(vals[0])| && end == pos + |SendEach(vals)|
    ensures mid <= end <= |s| && s[pos..mid] == SendBulk(vals[0])
    ensures end == mid + |SendEach(vals[1..])| && s[mid..end] == SendEach(vals[1..])
  {
    assert SendEach(vals) == SendBulk(vals[0]) + SendEach(vals[1..]);
    SliceCut(s, pos, mid, end, SendBulk(vals[0]), SendEach(vals[1..]));
  }

  /** The others start where the first bulk ends. */
  lemma EachRest(s: seq<byte>, pos: nat, vals: seq<Arg>, mid: nat, end: nat)
    requires vals != [] && Encodable(vals)
    requires pos + |SendEach(vals)| <= |s| && s[pos..pos + |SendEach(vals)|] == SendEach(vals)
    requires mid == pos + |SendBulk(vals[0])| && end == pos + |SendEach(vals)|
    ensures Encodable(vals[1..]) && |vals[1..]| == |vals| - 1
    ensures end == mid + |SendEach(vals[1..])| && end <= |s| && s[mid..end] == SendEach(vals[1..])
  {
    EachSplit(s, pos, vals, mid, end);
  }

  /** The first bulk of the window is the element decoded at its start. */
  lemma EachHead(s: seq<byte>, pos: nat, vals: seq<Arg>, mid: nat, end: nat)
    requires vals != [] && Encodable(vals)
    requires pos + |SendEach(vals)| <= |s| && s[pos..pos + |SendEach(vals)|] == SendEach(vals)
    requires mid == pos + |SendBulk(vals[0])| && end == pos + |SendEach(vals)|
    ensures pos <= |s| && ElementAt(s, pos) == Parsed(vals[0], mid)
  {
    EachSplit(s, pos, vals, mid, end);
    ElementAtBulk(s, pos, vals[0], mid);
  }

  /** The first element decoded in front of the others. */
  lemma EachCons(s: seq<byte>, pos: nat, vals: seq<Arg>, mid: nat, end: nat)
    requires vals != [] && pos <= |s|
    requires ElementAt(s, pos) == Parsed(vals[0], mid)
    requires ArgsAt(s, mid, |vals| - 1) == Parsed(vals[1..], end)
    ensures ArgsAt(s, pos, |vals|) == Parsed(vals, end)
  {
    HeadTail(vals);
    ArgsCons(s, pos, |vals|, vals[0], mid, Parsed(vals[1..], end));
  }

  /** A non-empty list is its first element in front of the others. */
  lemma HeadTail(vals: seq<Arg>)
    requires vals != []
    ensures [vals[0]] + vals[1..] == vals
  {
  }

  /** A present bulk in the window `pos..next` is the element decoded there. */
  lemma ElementAtBulk(s: seq<byte>, pos: nat, a: Arg, next: nat)
    requires a.Bulk? && |a.data| <= MaxBulkSize
    requires next == pos + |SendBulk(a)| && next <= |s| && s[pos..next] == SendBulk(a)
    ensures ElementAt(s, pos) == Parsed(a, next)
  {
    ElementRoundTrip(s, pos, a.data, next);
  }

  /** The array header `*n` CR LF of a non-nil slice of `n <= MaxNumArg` values
      is read back as `n`, and the bulks follow it. */
  lemma CountRoundTrip(vals: seq<Arg>, rest: seq<byte>, p2: nat)
    requires |vals| <= MaxNumArg && p2 == 3 + |FormatInt(|vals|)|
    ensures p2 + |SendEach(vals)| == |SendBulks(Some(vals))|
    ensures p2 + |SendEach(vals)| <= |SendBulks(Some(vals)) + rest|
    ensures (SendBulks(Some(vals)) + rest)[p2..p2 + |SendEach(vals)|] == SendEach(vals)
    ensures CountAt(SendBulks(Some(vals)) + rest) == Parsed(|vals|, p2)
  {
    var f := FormatInt(|vals|);
    var e := SendEach(vals);
    var out := SendBulks(Some(vals));
    assert out == [STAR] + (f + (CRLF + e));
    FrameLayout(out, rest, f, e);
    HeaderLine(out + rest, |vals|, p2);
  }

  /** Where the pieces of an array reply with header digits `f` and bulks `e`
      sit, whatever follows it. */
  lemma FrameLayout(out: seq<byte>, rest: seq<byte>, f: seq<byte>, e: seq<byte>)
    requires out == [STAR] + (f + (CRLF + e))
    ensures var s := out + rest;
            && |out| == 3 + |f| + |e|
            && s[0] == STAR && s[1..1 + |f|] == f && s[1 + |f|..3 + |f|] == CRLF
            && s[3 + |f|..3 + |f| + |e|] == e
  {
    HeaderParts(out, f, e);
    PrefixSlice(out, rest, 1, 1 + |f|);
    PrefixSlice(out, rest, 1 + |f|, 3 + |f|);
    PrefixSlice(out, rest, 3 + |f|, 3 + |f| + |e|);
  }

  /** The count digits, the CR LF and the bulks after the `*` of an array reply. */
  lemma HeaderParts(out: seq<byte>, f: seq<byte>, e: seq<byte>)
    requires out == [STAR] + (f + (CRLF + e))
    ensures |out| == 3 + |f| + |e|
    ensures out[1..1 + |f|] == f && out[1 + |f|..3 + |f|] == CRLF && out[3 + |f|..] == e
  {
    forall k | 0 <= k < |f|
      ensures out[1 + k] == f[k]
    {
    }
    forall k | 0 <= k < |e|
      ensures out[3 + |f| + k] == e[k]
    {
    }
    assert out[1 + |f|] == CR && out[2 + |f|] == LF;
  }

  /** Bytes appended after `out` do not change a window inside it. */
  lemma PrefixSlice(out: seq<byte>, rest: seq<byte>, i: nat, j: nat)
    requires i <= j <= |out|
    ensures (out + rest)[i..j] == out[i..j]
  {
  }

  /** `*`, the digits of `n` and CR LF read back as the count `n`. */
  lemma HeaderLine(s: seq<byte>, n: nat, p2: nat)
    requires n <= MaxNumArg && p2 == 3 + |FormatInt(n)| && p2 <= |s|
    requires s[0] == STAR && s[1..1 + |FormatInt(n)|] == FormatInt(n)
    requires s[1 + |FormatInt(n)|..p2] == CRLF
    ensures CountAt(s) == Parsed(n, p2)
  {
    var p1 := 1 + |FormatInt(n)|;
    SliceAt(s, p1, CRLF, 0);
    SliceAt(s, p1, CRLF, 1);
    ReadNumberFormat(s, 1, n);
  }

  /** Round trip: the bytes of `SendBulks` of a non-nil slice of at most
      `MaxNumArg` present values, none longer than `MaxBulkSize`, decode to the
      command with exactly those arguments, whatever follows them. */
  lemma BulksRoundTrip(vals: seq<Arg>, rest: seq<byte>)
    requires |vals| <= MaxNumArg && Encodable(vals)
    ensures var out := SendBulks(Some(vals));
            && DecodeMultibulk(out + rest) == Parsed(Frame(Command(vals)), |out|)
            && Decode(out + rest) == Frame(Command(vals))
  {
    var s := SendBulks(Some(vals)) + rest;
    var p2 := 3 + |FormatInt(|vals|)|;
    CountRoundTrip(vals, rest, p2);
    ArgsRoundTrip(s, p2, vals, p2 + |SendEach(vals)|);
  }

  /** The encoder's null bulk, read as a request element, is followed by a
      second CR LF only if the stream happens to continue with one. */
  lemma NullBulkElement(s: seq<byte>, pos: nat)
    requires pos + 5 <= |s| && s[pos..pos + 5] == NilBulk
    ensures ElementAt(s, pos) == match NewLineAt(s, pos + 5)
                                 case Parsed(_, p) => Parsed(Null, p)
                                 case Failed(e) => Failed(e)
  {
    SliceSplit(s, pos, [DOLLAR], [MINUS, 49, CR, LF]);
    SliceAt(s, pos, [DOLLAR], 0);
    SliceSplit(s, pos + 1, FormatInt(-1), CRLF);
    SliceAt(s, pos + 3, CRLF, 0);
    SliceAt(s, pos + 3, CRLF, 1);
    ReadNumberFormat(s, pos + 1, -1);
  }

  /** Null asymmetry: a null first element followed by any other element does
      not decode: the decoder wants a second CR LF where the next `$` stands. */
  lemma NullElementAsymmetry(vals: seq<Arg>, rest: seq<byte>)
    requires 2 <= |vals| <= MaxNumArg && vals[0] == Null
    ensures DecodeMultibulk(SendBulks(Some(vals)) + rest) == Failed(ExpectNewLine)
  {
    var s := SendBulks(Some(vals)) + rest;
    var p2 := 3 + |FormatInt(|vals|)|;
    CountRoundTrip(vals, rest, p2);
    NullThenBulk(s, p2, vals, p2 + |SendEach(vals)|);
    NullBulkElement(s, p2);
    assert NewLineAt(s, p2 + 5) == Failed(ExpectNewLine);
    ArgsStep(s, p2, |vals|);
  }

  /** A null bulk followed by any bulk: the `$` of the second stands where the
      decoder wants the null bulk's second CR LF. */
  lemma NullThenBulk(s: seq<byte>, p2: nat, vals: seq<Arg>, end: nat)
    requires 2 <= |vals| && vals[0] == Null
    requires end == p2 + |SendEach(vals)| && end <= |s| && s[p2..end] == SendEach(vals)
    ensures p2 + 5 < |s| && s[p2..p2 + 5] == NilBulk && s[p2 + 5] == DOLLAR
  {
    var tail := SendEach(vals[1..]);
    assert SendEach(vals) == NilBulk + tail;
    SliceCut(s, p2, p2 + 5, end, NilBulk, tail);
    assert tail == SendBulk(vals[1]) + SendEach(vals[2..]) by {
      assert vals[1..][1..] == vals[2..];
    }
    assert s[p2 + 5] == s[p2 + 5..end][0];
  }

  /** The null array the encoder writes decodes to the nil command only when the
      stream happens to continue with CR LF. */
  lemma NilArrayAsymmetry(rest: seq<byte>)
    ensures DecodeMultibulk(SendBulks(None) + rest)
            == if |rest| < 2 then Failed(StreamError)
               else if rest[..2] == CRLF then Parsed(NullFrame, 7)
               else Failed(ExpectNewLine)
  {
    var s := NilArray + rest;
    assert s[1..3] == FormatInt(-1) && s[3] == CR && s[4] == LF;
    ReadNumberFormat(s, 1, -1);
    if |rest| >= 2 {
      assert s[5] == rest[0] && s[6] == rest[1];
    }
  }

  /** Round trip for string replies: `SendBulkStrings` of at most `MaxNumArg`
      strings, none longer than `MaxBulkSize`, decodes to the command whose
      arguments are those strings in order. */
  lemma StringsRoundTrip(strs: seq<seq<byte>>, rest: seq<byte>)
    requires |strs| <= MaxNumArg
    requires forall i :: 0 <= i < |strs| ==> |strs[i]| <= MaxBulkSize
    ensures var s := SendBulkStrings(Some(strs)) + rest;
            && s[0] == STAR
            && Decode(s) == Frame(Command(AsBulks(strs)))
  {
    BulksRoundTrip(AsBulks(strs), rest);
  }
}

=== FILE: sentinel_commands.dfy ===
/** The `SENTINEL` command of the standalone proxy: a mock pod registry answered
    in the shape a Sentinel would use. Every subcommand reads the pod name from
    the second argument; the registry is a map from pod name to `RedisPod`. */
module SentinelCommands {
  import opened Bytes
  import opened Decimal
  import opened Protocol
  import opened Frames
  import opened Encoder
  import opened RoundTrip
  import opened Handlers

  /** `RedisPod`: a monitored master. Only `parallelSyncs` is a number. */
  datatype RedisPod = RedisPod(
    name: seq<byte>,
    ip: seq<byte>,
    port: seq<byte>,
    quorum: seq<byte>,
    authPass: seq<byte>,
    parallelSyncs: int)

  type Pods = map<seq<byte>, RedisPod>

  const MONITOR: seq<byte> := Str("MONITOR")
  const SET: seq<byte> := Str("SET")
  const MASTER: seq<byte> := Str("MASTER")
  const GET_MASTER_ADDR: seq<byte> := Str("GET-MASTER-ADDR-BY-NAME")
  const AUTH_PASS: seq<byte> := Str("AUTH-PASS")
  const PARALLEL_SYNCS: seq<byte> := Str("PARALLEL-SYNCS")

  /** The subcommand names the dispatcher knows. */
  const Subcommands: set<seq<byte>> := {MONITOR, SET, MASTER, GET_MASTER_ADDR}

  const NoSuchPod: seq<byte> := Str("NOSUCHPOD Pod doesn't exist")
  const InvalidValue: seq<byte> := Str("INVALIDVALUE value given for parallel-syncs must be an integer")

  /** The subcommand: the first argument, upper-cased. */
  function Subcommand(c: Command): seq<byte> {
    ToUpper(ArgBytes(c.Get(1)))
  }

  /** The pod a subcommand names: the second argument. */
  function PodName(c: Command): seq<byte> {
    ArgBytes(c.Get(2))
  }

  /** The setting `SET` changes: the third argument, upper-cased. */
  function Setting(c: Command): seq<byte> {
    ToUpper(ArgBytes(c.Get(3)))
  }

  /** The value `SET` stores: the fourth argument. */
  function Value(c: Command): seq<byte> {
    ArgBytes(c.Get(4))
  }

  /** The text of the error for a setting `SET` does not know; the setting keeps
      the casing the client used. */
  function NotASetting(setting: seq<byte>): (msg: seq<byte>)
    ensures |msg| == |setting| + 27 && msg[..|setting|] == setting
  {
    setting + Str(" is not a valid pod setting")
  }

  /** `Sentinel`: dispatch on the upper-cased subcommand; an unknown one is
      answered with an error naming it and changes nothing. No subcommand returns
      an error of its own. */
  function Sentinel(pods: Pods, c: Command): (r: Handled<Pods>)
    ensures !r.err
    ensures Subcommand(c) !in Subcommands
            ==> r.next == pods && r.out == SendError(NotSupported(Subcommand(c)))
    ensures Subcommand(c) == MONITOR ==> r == Monitor(pods, c)
    ensures Subcommand(c) == SET ==> r == SetOption(pods, c)
    ensures Subcommand(c) == MASTER ==> r == Master(pods, c)
    ensures Subcommand(c) == GET_MASTER_ADDR ==> r == MasterAddress(pods, c)
    ensures Subcommand(c) != MONITOR && Subcommand(c) != SET ==> r.next == pods
  {
    var sub := Subcommand(c);
    if sub == MONITOR then Monitor(pods, c)
    else if sub == SET then SetOption(pods, c)
    else if sub == MASTER then Master(pods, c)
    else if sub == GET_MASTER_ADDR then MasterAddress(pods, c)
    else Handled(pods, SendError(NotSupported(sub)), false)
  }

  /** `sentinelMonitor`: registers the pod from arguments 2 to 5, replacing any
      pod of that name, with no auth password and zero parallel syncs. */
  function Monitor(pods: Pods, c: Command): (r: Handled<Pods>)
    ensures PodName(c) in r.next && r.next.Keys == pods.Keys + {PodName(c)}
    ensures var pod := r.next[PodName(c)];
            && pod.name == PodName(c) && pod.ip == ArgBytes(c.Get(3))
            && pod.port == ArgBytes(c.Get(4)) && pod.quorum == ArgBytes(c.Get(5))
            && pod.authPass == [] && pod.parallelSyncs == 0
    ensures forall n :: n in pods && n != PodName(c) ==> r.next[n] == pods[n]
    ensures r.out == SendOk() && !r.err
  {
    var name := PodName(c);
    var pod := RedisPod(name, ArgBytes(c.Get(3)), ArgBytes(c.Get(4)), ArgBytes(c.Get(5)), [], 0);
    Handled(pods[name := pod], SendOk(), false)
  }

  /** `sentinelSet`: changes one setting of an existing pod. Only a known
      setting with an acceptable value changes anything, and then only that
      field of that pod; every failure leaves the registry as it was. */
  function SetOption(pods: Pods, c: Command): (r: Handled<Pods>)
    ensures !r.err && r.next.Keys == pods.Keys
    ensures forall n :: n in pods && n != PodName(c) ==> r.next[n] == pods[n]
    ensures PodName(c) !in pods ==> r.next == pods && r.out == SendError(NoSuchPod)
    ensures PodName(c) in pods && Setting(c) == AUTH_PASS
            ==> r.next[PodName(c)] == pods[PodName(c)].(authPass := Value(c)) && r.out == SendOk()
    ensures PodName(c) in pods && Setting(c) == PARALLEL_SYNCS && ParseInt32(Value(c)).Some?
            ==> && r.next[PodName(c)] == pods[PodName(c)].(parallelSyncs := ParseInt32(Value(c)).value)
                && r.out == SendOk()
    ensures PodName(c) in pods && Setting(c) == PARALLEL_SYNCS && ParseInt32(Value(c)).None?
            ==> r.next == pods && r.out == SendError(InvalidValue)
    ensures PodName(c) in pods && Setting(c) != AUTH_PASS && Setting(c) != PARALLEL_SYNCS
            ==> r.next == pods && r.out == SendError(NotASetting(ArgBytes(c.Get(3))))
  {
    var name := PodName(c);
    if name !in pods then Handled(pods, SendError(NoSuchPod), false)
    else
      var pod := pods[name];
      if Setting(c) == AUTH_PASS then
        Handled(pods[name := pod.(authPass := Value(c))], SendOk(), false)
      else if Setting(c) == PARALLEL_SYNCS then
        match ParseInt32(Value(c))
        case None => Handled(pods, SendError(InvalidValue), false)
        case Some(n) => Handled(pods[name := pod.(parallelSyncs := n)], SendOk(), false)
      else Handled(pods, SendError(NotASetting(ArgBytes(c.Get(3)))), false)
  }

  /** The field list `MASTER` reports: alternating labels and values. */
  function MasterFields(pod: RedisPod): (fields: seq<seq<byte>>)
    ensures |fields| == 8
    ensures fields[0] == Str("name") && fields[1] == pod.name
    ensures fields[2] == Str("port") && fields[3] == pod.port
    ensures fields[4] == Str("auth-pass") && fields[5] == pod.authPass
    ensures fields[6] == Str("parallel-syncs") && fields[7] == FormatInt(pod.parallelSyncs)
  {
    [Str("name"), pod.name, Str("port"), pod.port,
     Str("auth-pass"), pod.authPass, Str("parallel-syncs"), FormatInt(pod.parallelSyncs)]
  }

  /** `sentinelGetMasterByName`: the pod's field list as an array of bulks, or
      the null bulk for an unknown pod. */
  function Master(pods: Pods, c: Command): (r: Handled<Pods>)
    ensures r.next == pods && !r.err
    ensures PodName(c) !in pods <==> r.out == NilBulk
    ensures PodName(c) in pods ==> r.out == SendBulkStrings(Some(MasterFields(pods[PodName(c)])))
  {
    var name := PodName(c);
    if name !in pods then Handled(pods, SendBulk(Null), false)
    else Handled(pods, SendBulkStrings(Some(MasterFields(pods[name]))), false)
  }

  /** `sentinelGetMasterAddressByName`: the two-element array of the pod's name
      (not its IP) and port, or the null bulk for an unknown pod. */
  function MasterAddress(pods: Pods, c: Command): (r: Handled<Pods>)
    ensures r.next == pods && !r.err
    ensures PodName(c) !in pods <==> r.out == NilBulk
    ensures PodName(c) in pods ==> r.out == SendBulkStrings(Some([pods[PodName(c)].name, pods[PodName(c)].port]))
  {
    var name := PodName(c);
    if name !in pods then Handled(pods, SendBulk(Null), false)
    else Handled(pods, SendBulkStrings(Some([pods[name].name, pods[name].port])), false)
  }

  /** The subcommand name is matched without regard to case. */
  lemma SubcommandCaseInsensitive(pods: Pods, c: Command, d: Command)
    requires |c.argv| == |d.argv| >= 2
    requires ToUpper(ArgBytes(c.argv[1])) == ToUpper(ArgBytes(d.argv[1]))
    requires forall i :: 0 <= i < |c.argv| && i != 1 ==> c.argv[i] == d.argv[i]
    ensures Sentinel(pods, c).next == Sentinel(pods, d).next
    ensures Sentinel(pods, c).out == Sentinel(pods, d).out
  {
    assert Subcommand(c) == Subcommand(d);
    forall i | 2 <= i
      ensures c.Get(i) == d.Get(i)
    {
    }
    SameOperands(pods, c, d);
    assert Sentinel(pods, c) == Sentinel(pods, d);
  }

  /** The subcommands read only the arguments after the subcommand name. */
  lemma SameOperands(pods: Pods, c: Command, d: Command)
    requires forall i :: 2 <= i ==> c.Get(i) == d.Get(i)
    ensures Monitor(pods, c) == Monitor(pods, d) && SetOption(pods, c) == SetOption(pods, d)
    ensures Master(pods, c) == Master(pods, d) && MasterAddress(pods, c) == MasterAddress(pods, d)
  {
    assert c.Get(2) == d.Get(2) && c.Get(3) == d.Get(3);
    assert c.Get(4) == d.Get(4) && c.Get(5) == d.Get(5);
  }

  /** Registering a pod and asking for it again reports what was registered,
      with the defaults for the two settings. */
  lemma MonitorThenMaster(pods: Pods, mon: Command, ask: Command)
    requires PodName(ask) == PodName(mon)
    ensures Master(Monitor(pods, mon).next, ask).out
            == SendBulkStrings(Some([Str("name"), PodName(mon), Str("port"), ArgBytes(mon.Get(4)),
                                     Str("auth-pass"), [], Str("parallel-syncs"), [ZERO]]))
  {
    var pod := Monitor(pods, mon).next[PodName(mon)];
    assert FormatInt(0) == [ZERO];
    assert MasterFields(pod) == [Str("name"), PodName(mon), Str("port"), ArgBytes(mon.Get(4)),
                                 Str("auth-pass"), [], Str("parallel-syncs"), [ZERO]];
  }

  /** `SET pod parallel-syncs` of the decimal form of an int32 stores that value,
      and `MASTER` then prints it back digit for digit. */
  lemma ParallelSyncsRoundTrip(pods: Pods, put: Command, ask: Command, v: int)
    requires IsInt32(v) && PodName(put) in pods && PodName(ask) == PodName(put)
    requires Setting(put) == PARALLEL_SYNCS && Value(put) == FormatInt(v)
    ensures SetOption(pods, put).out == SendOk()
    ensures SetOption(pods, put).next[PodName(put)].parallelSyncs == v
    ensures Master(SetOption(pods, put).next, ask).out
            == SendBulkStrings(Some(MasterFields(pods[PodName(put)].(parallelSyncs := v))))
  {
    ParseFormatRoundTrip(v);
  }

  /** A `MASTER` reply whose fields fit in a bulk decodes, as a request, to the
      command whose arguments are those fields. */
  lemma MasterReplyDecodes(pods: Pods, c: Command, rest: seq<byte>)
    requires PodName(c) in pods
    requires forall i :: 0 <= i < 8 ==> |MasterFields(pods[PodName(c)])[i]| <= MaxBulkSize
    ensures var s := Master(pods, c).out + rest;
            && s[0] == STAR
            && Decode(s) == Frame(Command(AsBulks(MasterFields(pods[PodName(c)]))))
  {
    StringsRoundTrip(MasterFields(pods[PodName(c)]), rest);
  }
}

=== FILE: sentinel_set.dfy ===
/** `SentinelSet`: the set of managing Sentinel addresses, a Go map from address
    to the empty struct. Only membership matters; Go's map iteration order is
    left open and pinned down only by `Listing`'s contract. */
module Constellation {
  import opened Bytes

  /** A Sentinel's `host:port` string. */
  type Address = seq<byte>

  datatype SentinelSet = SentinelSet(members: set<Address>) {

    /** `Contains`: membership, read without changing the set. */
    predicate Contains(a: Address) {
      a in members
    }

    /** `Add`: the set with `a` in it, and whether `a` was there before the call. */
    function Add(a: Address): (r: (SentinelSet, bool))
      ensures r.0.Contains(a)
      ensures forall b :: b != a ==> (r.0.Contains(b) <==> Contains(b))
      ensures r.1 <==> Contains(a)
      ensures r.1 ==> r.0 == this
    {
      (SentinelSet(members + {a}), a in members)
    }

    /** `Remove`: the set without `a`; Go's `delete` of a missing key does nothing. */
    function Remove(a: Address): (r: SentinelSet)
      ensures !r.Contains(a)
      ensures forall b :: b != a ==> (r.Contains(b) <==> Contains(b))
      ensures !Contains(a) ==> r == this
    {
      SentinelSet(members - {a})
    }
  }

  /** `NewConstellation`: a set with no member. */
  function NewConstellation(): (c: SentinelSet)
    ensures forall a :: !c.Contains(a)
  {
    SentinelSet({})
  }

  /** Adding an address twice leaves the set as adding it once; the second call
      reports the address as present. */
  lemma AddIdempotent(c: SentinelSet, a: Address)
    ensures c.Add(a).0.Add(a) == (c.Add(a).0, true)
  {
  }

  /** Removing what was just added gives back the set as it was, provided the
      address was new. */
  lemma AddThenRemove(c: SentinelSet, a: Address)
    ensures !c.Add(a).1 ==> c.Add(a).0.Remove(a) == c
  {
  }

  /** No address repeats in `xs`. */
  predicate Distinct(xs: seq<Address>) {
    forall i, j :: 0 <= i < j < |xs| ==> xs[i] != xs[j]
  }

  /** `xs` names every address of `s` exactly once: what a `range` over the map
      yields, in some order. */
  predicate IsListing(xs: seq<Address>, s: set<Address>) {
    && Distinct(xs)
    && (forall i :: 0 <= i < |xs| ==> xs[i] in s)
    && (forall a :: a in s ==> a in xs)
  }

  /** `for s := range set`: every member once, in an order the model leaves open. */
  method Listing(c: SentinelSet) returns (xs: seq<Address>)
    ensures IsListing(xs, c.members)
    ensures |xs| == |c.members|
  {
    var rest := c.members;
    xs := [];
    while rest != {}
      invariant rest <= c.members
      invariant Distinct(xs)
      invariant forall i :: 0 <= i < |xs| ==> xs[i] in c.members && xs[i] !in rest
      invariant forall a :: a in c.members ==> a in rest || a in xs
      invariant |xs| + |rest| == |c.members|
      decreases |rest|
    {
      var a :| a in rest;
      xs := xs + [a];
      rest := rest - {a};
    }
  }
}

=== FILE: servers.dfy ===
/** The two servers: the connection loop wired to each proxy's handler table.
    A handler's error is its own refusal or a failed write of its reply; the
    loop's own replies fail exactly when the connection refuses writes. */
module Servers {
  import opened Bytes
  import opened Decimal
  import opened Protocol
  import opened Encoder
  import opened Handlers
  import opened MockStore
  import opened SentinelCommands
  import opened Constellation
  import opened ShardingCommands
  import opened Session

  const GET_CMD: seq<byte> := Str("GET")
  const SET_CMD: seq<byte> := Str("SET")
  const SENTINEL_CMD: seq<byte> := Str("SENTINEL")
  const ADDSENTINEL_CMD: seq<byte> := Str("ADDSENTINEL")
  const KNOWNSENTINELS_CMD: seq<byte> := Str("KNOWNSENTINELS")

  /** What the loop learns from a handler table lookup: whether the name was
      found and, if so, what running the handler writes and returns. A handler
      that writes fails when the connection refuses writes. */
  function Consult<S>(h: Option<Handled<S>>, writeOk: bool): (o: Oracle)
    ensures o.registered <==> h.Some?
    ensures o.writeOk == writeOk
    ensures h.Some? ==> o.handlerOut == h.value.out
    ensures h.Some? && writeOk ==> o.handlerErr == h.value.err
    ensures h.Some? && h.value.out == [] ==> o.handlerErr == h.value.err
    ensures h.Some? && !writeOk && h.value.out != [] ==> o.handlerErr
  {
    match h
    case None => Oracle(false, [], false, writeOk)
    case Some(x) => Oracle(true, x.out, x.err || (!writeOk && x.out != []), writeOk)
  }

  // ---------------------------------------------------------------------------
  // The standalone proxy

  /** The data behind the standalone proxy's handlers. */
  datatype Backend = Backend(store: Store, pods: Pods)

  /** The names in the standalone proxy's handler table. */
  const MainCommands: set<seq<byte>> := {GET_CMD, SET_CMD, SENTINEL_CMD, AUTH}

  /** The store `init` fills in: `foo` holds `foo`; no pod is registered. */
  function InitialBackend(): (b: Backend)
    ensures b.store.Keys == {Str("foo")} && b.store[Str("foo")] == Bulk(Str("foo"))
    ensures b.pods == map[]
  {
    Backend(map[Str("foo") := Bulk(Str("foo"))], map[])
  }

  /** The token `init` accepts. */
  function InitialTokens(): (t: Tokens)
    ensures t.Keys == {Str("secretpass1")} && t[Str("secretpass1")]
  {
    map[Str("secretpass1") := true]
  }

  /** The standalone proxy's handler table, looked up and run. Only `SET` and
      `SENTINEL` can change the data, each its own part. */
  function MainHandle(b: Backend, tokens: Tokens, c: Command): (h: Option<Handled<Backend>>)
    ensures h.Some? <==> CommandName(c) in MainCommands
    ensures CommandName(c) == AUTH ==> h == Some(AuthConnection(b, tokens, c))
    ensures CommandName(c) == GET_CMD ==> h.value.next == b && h.value.out == Get(b.store, c).out
    ensures CommandName(c) == SET_CMD ==> h.value.next.pods == b.pods && h.value.next.store == Set(b.store, c).next
                                          && h.value.out == Set(b.store, c).out
    ensures CommandName(c) == SENTINEL_CMD ==> h.value.next.store == b.store
                                               && h.value.next.pods == Sentinel(b.pods, c).next
                                               && h.value.out == Sentinel(b.pods, c).out
    ensures h.Some? ==> (h.value.err <==> CommandName(c) == AUTH && AuthConnection(b, tokens, c).err)
  {
    var name := CommandName(c);
    if name == GET_CMD then
      var r := Get(b.store, c);
      Some(Handled(b, r.out, r.err))
    else if name == SET_CMD then
      var r := Set(b.store, c);
      Some(Handled(b.(store := r.next), r.out, r.err))
    else if name == SENTINEL_CMD then
      var r := Sentinel(b.pods, c);
      Some(Handled(b.(pods := r.next), r.out, r.err))
    else if name == AUTH then Some(AuthConnection(b, tokens, c))
    else None
  }

  datatype MainState = MainState(session: Session, backend: Backend)

  /** One turn of a standalone proxy connection: the loop's step with the
      table's answer; the data changes only through a handler that ran. */
  function MainStep(st: MainState, tokens: Tokens, d: Decoded, writeOk: bool): (r: (MainState, Turn))
    requires !d.NullFrame?
    ensures r.0.session == r.1.next
    ensures r.1 == Step(st.session, d, Consult(if d.Frame? then MainHandle(st.backend, tokens, d.cmd) else None, writeOk))
    ensures !r.1.dispatched ==> r.0.backend == st.backend
    ensures r.1.dispatched ==> d.Frame? && r.0.backend == MainHandle(st.backend, tokens, d.cmd).value.next
  {
    var h := if d.Frame? then MainHandle(st.backend, tokens, d.cmd) else None;
    var t := Step(st.session, d, Consult(h, writeOk));
    (MainState(t.next, if t.dispatched then h.value.next else st.backend), t)
  }

  /** Before authorization nothing but AUTH reaches a handler, so the data
      cannot change. */
  lemma UnauthorizedLeavesData(st: MainState, tokens: Tokens, d: Decoded, writeOk: bool)
    requires !d.NullFrame? && !st.session.authorized
    ensures MainStep(st, tokens, d, writeOk).0.backend == st.backend
  {
  }

  /** Once authorized, AUTH goes through the table like any command: a bad
      token ends the connection with no reply at all. */
  lemma AuthorizedBadTokenCloses(st: MainState, tokens: Tokens, c: Command, writeOk: bool)
    requires st.session.authorized && CommandName(c) == AUTH
    requires !(Token(c) in tokens && tokens[Token(c)])
    ensures var r := MainStep(st, tokens, Frame(c), writeOk);
            r.1.closed && r.1.out == [] && r.0 == st
  {
    AuthIsNotQuit();
  }

  /** ... and a good token is accepted silently: no `+OK`, the connection stays. */
  lemma AuthorizedGoodTokenSilent(st: MainState, tokens: Tokens, c: Command, writeOk: bool)
    requires st.session.authorized && CommandName(c) == AUTH
    requires Token(c) in tokens && tokens[Token(c)]
    ensures var r := MainStep(st, tokens, Frame(c), writeOk);
            !r.1.closed && r.1.out == [] && r.0 == st
  {
    AuthIsNotQuit();
  }

  /** Once authorized, a command outside the table is answered with an error
      naming it and ends the connection. */
  lemma AuthorizedUnknownCloses(st: MainState, tokens: Tokens, c: Command, writeOk: bool)
    requires st.session.authorized && CommandName(c) !in MainCommands && CommandName(c) != QUIT
    ensures var r := MainStep(st, tokens, Frame(c), writeOk);
            r.1.closed && r.1.out == SendError(NotSupported(CommandName(c))) && r.0 == st
  {
  }

  /** A fresh connection to the standalone proxy that authorizes with the
      token `init` accepts and then stores a value reads it back. */
  lemma LoginSetGet(tokens: Tokens, auth: Command, put: Command, get: Command)
    requires CommandName(auth) == AUTH && Token(auth) in tokens && tokens[Token(auth)]
    requires CommandName(put) == SET_CMD && CommandName(get) == GET_CMD && Key(get) == Key(put)
    ensures var r1 := MainStep(MainState(Start(), InitialBackend()), tokens, Frame(auth), true);
            var r2 := MainStep(r1.0, tokens, Frame(put), true);
            var r3 := MainStep(r2.0, tokens, Frame(get), true);
            && r1.1.out == SendOk() && r2.1.out == SendOk()
            && r3.1.out == SendString(ArgBytes(put.Get(2)))
            && !r1.1.closed && !r2.1.closed && !r3.1.closed
  {
    AuthIsNotQuit();
    assert QUIT != SET_CMD && QUIT != GET_CMD;
    var r1 := MainStep(MainState(Start(), InitialBackend()), tokens, Frame(auth), true);
    assert r1.0.session.authorized;
    var r2 := MainStep(r1.0, tokens, Frame(put), true);
    assert r2.0.backend.store == Set(InitialBackend().store, put).next;
    GetAfterSet(InitialBackend().store, put, get);
  }

  // ---------------------------------------------------------------------------
  // The sharding proxy

  /** The names in the sharding proxy's handler table. */
  const ShardingTable: set<seq<byte>> := {SENTINEL_CMD, AUTH, ADDSENTINEL_CMD, KNOWNSENTINELS_CMD}

  /** The sharding proxy's handler table, looked up and run. Its `SENTINEL`
      asks remote Sentinels; what that writes and returns is an input. Only
      `ADDSENTINEL` changes the set. */
  method ShardingHandle(set_: SentinelSet, tokens: Tokens, c: Command, remoteOut: seq<byte>, remoteErr: bool)
    returns (h: Option<Handled<SentinelSet>>)
    ensures h.Some? <==> CommandName(c) in ShardingTable
    ensures CommandName(c) == AUTH ==> h == Some(AuthConnection(set_, tokens, c))
    ensures CommandName(c) == ADDSENTINEL_CMD ==> h == Some(AddSentinel(set_, c))
    ensures CommandName(c) == SENTINEL_CMD ==> h == Some(Handled(set_, remoteOut, remoteErr))
    ensures CommandName(c) == KNOWNSENTINELS_CMD
            ==> && h.Some? && h.value.next == set_ && !h.value.err
                && (set_.members == {} <==> h.value.out == NilArray)
                && (set_.members != {} ==> exists xs :: IsListing(xs, set_.members)
                                                       && h.value.out == SendBulkStrings(Some(xs)))
  {
    var name := CommandName(c);
    if name == SENTINEL_CMD {
      h := Some(Handled(set_, remoteOut, remoteErr));
    } else if name == AUTH {
      h := Some(AuthConnection(set_, tokens, c));
    } else if name == ADDSENTINEL_CMD {
      h := Some(AddSentinel(set_, c));
    } else if name == KNOWNSENTINELS_CMD {
      var r, listed := KnownSentinels(set_, c);
      h := Some(r);
    } else {
      h := None;
    }
  }

  datatype ShardingState = ShardingState(session: Session, sentinels: SentinelSet)

  /** One turn of a sharding proxy connection: the loop's step with the
      sharding table's answer `h`. The set changes only through an
      `ADDSENTINEL` that ran, and only a good token authorizes. */
  method ShardingStep(st: ShardingState, tokens: Tokens, d: Decoded, writeOk: bool,
                      remoteOut: seq<byte>, remoteErr: bool)
    returns (next: ShardingState, t: Turn, h: Option<Handled<SentinelSet>>)
    requires !d.NullFrame?
    ensures next.session == t.next
    ensures t == Step(st.session, d, Consult(h, writeOk))
    // The table's answer.
    ensures h.Some? <==> d.Frame? && CommandName(d.cmd) in ShardingTable
    ensures Names(d, AUTH) ==> h == Some(AuthConnection(st.sentinels, tokens, d.cmd))
    ensures Names(d, ADDSENTINEL_CMD) ==> h == Some(AddSentinel(st.sentinels, d.cmd))
    ensures Names(d, SENTINEL_CMD) ==> h == Some(Handled(st.sentinels, remoteOut, remoteErr))
    ensures Names(d, KNOWNSENTINELS_CMD) ==> h.Some? && h.value.next == st.sentinels && !h.value.err
    // What the turn does with it.
    ensures !t.dispatched ==> next.sentinels == st.sentinels
    ensures t.dispatched && !Names(d, ADDSENTINEL_CMD) ==> next.sentinels == st.sentinels
    ensures t.dispatched && Names(d, ADDSENTINEL_CMD) ==> next.sentinels == AddSentinel(st.sentinels, d.cmd).next
    ensures !st.session.authorized && t.next.authorized
            ==> Names(d, AUTH) && Token(d.cmd) in tokens && tokens[Token(d.cmd)]
  {
    h := None;
    if d.Frame? {
      h := ShardingHandle(st.sentinels, tokens, d.cmd, remoteOut, remoteErr);
    }
    t := Step(st.session, d, Consult(h, writeOk));
    if t.dispatched {
      next := ShardingState(t.next, h.value.next);
    } else {
      next := ShardingState(t.next, st.sentinels);
    }
  }
}

=== FILE: session.dfy ===
/** The per-connection loop `handleConnection` (identical in the standalone and
    the sharding proxy) as a step function over one decoded request. The
    handler table, what a handler does and whether the connection still takes
    writes are inputs of each step. */
module Session {
  import opened Bytes
  import opened Protocol
  import opened Encoder
  import opened Handlers

  const MaxAuths: nat := 3
  const MaxUnauthCommands: nat := 3

  const QUIT: seq<byte> := Str("QUIT")
  const AUTH: seq<byte> := Str("AUTH")

  const AuthNotSupported: seq<byte> := Str("AUTH Command not supported")
  const TooManyAuthFails: seq<byte> := Str("GOAWAY Too many failed auth attempts")
  const InvalidAuth: seq<byte> := Str("INVALIDAUTH Need to auth first")
  const TooManyUnauthed: seq<byte> := Str("GOAWAY Too many unauthenticated commands")
  const NoValidAuth: seq<byte> := Str("NOVALIDAUTH Need to auth first")

  /** The two names the loop itself looks at are different. */
  lemma AuthIsNotQuit()
    ensures AUTH != QUIT
  {
    assert AUTH[0] != QUIT[0];
  }

  /** The loop's local state. */
  datatype Session = Session(authorized: bool, authfails: nat, unauthedCommands: nat)

  /** The state a new connection starts in. */
  function Start(): (s: Session)
    ensures !s.authorized && Admissible(s)
  {
    Session(false, 0, 0)
  }

  /** Both counters below their limits: the state of every connection still open. */
  predicate Admissible(s: Session) {
    s.authfails < MaxAuths && s.unauthedCommands < MaxUnauthCommands
  }

  /** What one turn learns from outside the loop: whether the command's name is
      in the handler table, what the handler writes and whether it returns an
      error if it is run, and whether the loop's own reply can be written. */
  datatype Oracle = Oracle(registered: bool, handlerOut: seq<byte>, handlerErr: bool, writeOk: bool)

  /** One turn: the state after it, the bytes written (handler output
      included), whether the loop ends, and whether the handler ran. */
  datatype Turn = Turn(next: Session, out: seq<byte>, closed: bool, dispatched: bool)

  /** The name a command is dispatched on: its first argument, upper-cased. */
  function CommandName(c: Command): seq<byte> {
    ToUpper(ArgBytes(c.Get(0)))
  }

  /** Whether a decoded input is a command called `name`. */
  predicate Names(d: Decoded, name: seq<byte>) {
    d.Frame? && CommandName(d.cmd) == name
  }

  /** An `AUTH` before authorization. A missing handler is reported and not
      counted; a failing handler counts, and the third failure ends the
      connection; success authorizes. Only the `+OK` of a success closes the
      connection when it cannot be written. */
  function AuthTurn(s: Session, o: Oracle): (t: Turn)
    requires !s.authorized
    ensures t.dispatched <==> o.registered
    ensures !o.registered ==> t == Turn(s, SendError(AuthNotSupported), false, false)
    ensures o.registered && o.handlerErr ==>
              && t.next == s.(authfails := s.authfails + 1)
              && (t.closed <==> t.next.authfails == MaxAuths)
              && t.out == o.handlerOut + SendError(if t.closed then TooManyAuthFails else InvalidAuth)
    ensures o.registered && !o.handlerErr ==>
              && t.next == s.(authorized := true)
              && t.out == o.handlerOut + SendOk()
              && (t.closed <==> !o.writeOk)
  {
    if !o.registered then Turn(s, SendError(AuthNotSupported), false, false)
    else if o.handlerErr then
      var fails := s.authfails + 1;
      if fails == MaxAuths then
        Turn(s.(authfails := fails), o.handlerOut + SendError(TooManyAuthFails), true, true)
      else
        Turn(s.(authfails := fails), o.handlerOut + SendError(InvalidAuth), false, true)
    else Turn(s.(authorized := true), o.handlerOut + SendOk(), !o.writeOk, true)
  }

  /** Any other command before authorization: never run, only counted; the
      third one ends the connection. */
  function UnauthedTurn(s: Session): (t: Turn)
    ensures !t.dispatched && t.next == s.(unauthedCommands := s.unauthedCommands + 1)
    ensures t.closed <==> t.next.unauthedCommands == MaxUnauthCommands
    ensures t.out == SendError(if t.closed then TooManyUnauthed else NoValidAuth)
  {
    var n := s.unauthedCommands + 1;
    if n == MaxUnauthCommands then
      Turn(s.(unauthedCommands := n), SendError(TooManyUnauthed), true, false)
    else Turn(s.(unauthedCommands := n), SendError(NoValidAuth), false, false)
  }

  /** One iteration of the loop. The nil command of a null array is not an
      input: the loop dereferences it and the goroutine panics. */
  function Step(s: Session, d: Decoded, o: Oracle): (t: Turn)
    requires !d.NullFrame?
    // QUIT, in any case and any state, ends the connection silently.
    ensures Names(d, QUIT) ==> t == Turn(s, [], true, false)
    // A protocol error is reported and the loop goes on unless the report
    // cannot be written; any other decode error ends the connection silently.
    ensures d.DecodeFailure? ==> t.next == s && !t.dispatched
    ensures d.DecodeFailure? && d.err.IsProtocolError()
            ==> t.out == SendError(d.err.Message()) && (t.closed <==> !o.writeOk)
    ensures d.DecodeFailure? && !d.err.IsProtocolError() ==> t.out == [] && t.closed
    // A handler runs only when registered, and before authorization only for AUTH.
    ensures t.dispatched <==> d.Frame? && !Names(d, QUIT) && o.registered
                              && (s.authorized || Names(d, AUTH))
    // Authorization is sticky and freezes the counters.
    ensures s.authorized ==> t.next == s
    ensures !s.authorized && t.next.authorized ==> Names(d, AUTH) && t.dispatched && !o.handlerErr
    // Once authorized, a handler's error ends the connection, and so does an
    // unknown command, after an error reply naming it.
    ensures s.authorized && t.dispatched ==> t.out == o.handlerOut && (t.closed <==> o.handlerErr)
    ensures s.authorized && d.Frame? && !Names(d, QUIT) && !o.registered
            ==> t.out == SendError(NotSupported(CommandName(d.cmd))) && t.closed
    // Each turn raises at most one counter, by one, and keeps an open
    // connection within both limits.
    ensures t.next.authfails >= s.authfails && t.next.unauthedCommands >= s.unauthedCommands
    ensures t.next.authfails + t.next.unauthedCommands <= s.authfails + s.unauthedCommands + 1
    ensures Admissible(s) && !t.closed ==> Admissible(t.next)
  {
    match d
    case DecodeFailure(e) =>
      if e.IsProtocolError() then Turn(s, SendError(e.Message()), !o.writeOk, false)
      else Turn(s, [], true, false)
    case Frame(c) =>
      var cmd := CommandName(c);
      if cmd == QUIT then Turn(s, [], true, false)
      else if !s.authorized then
        if cmd == AUTH then AuthTurn(s, o) else UnauthedTurn(s)
      else if o.registered then Turn(s, o.handlerOut, o.handlerErr, true)
      else Turn(s, SendError(NotSupported(cmd)), true, false)
  }

  /** One input of a connection with what the world answers to it. */
  datatype Event = Event(input: Decoded, oracle: Oracle)

  /** Inputs the loop can be given: no nil command. */
  predicate Feedable(events: seq<Event>) {
    forall i :: 0 <= i < |events| ==> !events[i].input.NullFrame?
  }

  /** A whole connection: the state at the end, every byte written, whether the
      loop ended and how many inputs it read (none after it ends). */
  datatype Transcript = Transcript(last: Session, out: seq<byte>, closed: bool, consumed: nat)

  /** The loop over a sequence of inputs, stopping at the first turn that ends it. */
  function Run(s: Session, events: seq<Event>): (r: Transcript)
    requires Feedable(events)
    ensures r.consumed <= |events|
    ensures !r.closed ==> r.consumed == |events|
    ensures r.closed ==> r.consumed > 0
    ensures Admissible(s) && !r.closed ==> Admissible(r.last)
    ensures s.authorized ==> r.last == s
    decreases |events|
  {
    if events == [] then Transcript(s, [], false, 0)
    else
      var t := Step(s, events[0].input, events[0].oracle);
      if t.closed then Transcript(t.next, t.out, true, 1)
      else
        Then(t.out, Run(t.next, events[1..]))
  }

  /** A command other than AUTH and QUIT. */
  predicate Refused(e: Event) {
    e.input.Frame? && !Names(e.input, AUTH) && !Names(e.input, QUIT)
  }

  /** An AUTH whose handler is registered, writes nothing and fails. */
  predicate FailedAuth(e: Event) {
    Names(e.input, AUTH) && e.oracle.registered && e.oracle.handlerErr && e.oracle.handlerOut == []
  }

  /** A turn that keeps the loop going, followed by the rest of the connection. */
  function Then(out: seq<byte>, rest: Transcript): (r: Transcript)
    ensures r.last == rest.last && r.closed == rest.closed && r.consumed == rest.consumed + 1
    ensures |r.out| == |out| + |rest.out| && r.out[..|out|] == out && r.out[|out|..] == rest.out
  {
    Transcript(rest.last, out + rest.out, rest.closed, rest.consumed + 1)
  }

  /** The loop over a first input and the rest: the first turn, then the rest
      unless the first turn ended the connection. */
  lemma RunFirst(s: Session, e: Event, rest: seq<Event>)
    requires !e.input.NullFrame? && Feedable(rest)
    ensures Feedable([e] + rest)
    ensures var t := Step(s, e.input, e.oracle);
            Run(s, [e] + rest) == if t.closed then Transcript(t.next, t.out, true, 1)
                                  else Then(t.out, Run(t.next, rest))
  {
    assert ([e] + rest)[1..] == rest;
  }

  /** Once a turn ends the loop, no later input is read: inputs appended after
      a closed run leave its transcript as it was. */
  lemma {:induction false} RunStopsAtClose(s: Session, events: seq<Event>, more: seq<Event>)
    requires Feedable(events) && Feedable(more) && Run(s, events).closed
    ensures Feedable(events + more) && Run(s, events + more) == Run(s, events)
    decreases |events|
  {
    var all := events + more;
    assert Feedable(all) by {
      forall i | 0 <= i < |all|
        ensures !all[i].input.NullFrame?
      {
        if i >= |events| { assert all[i] == more[i - |events|]; }
      }
    }
    assert all[0] == events[0] && all[1..] == events[1..] + more;
    var t := Step(s, events[0].input, events[0].oracle);
    if !t.closed {
      RunStopsAtClose(t.next, events[1..], more);
    }
  }

  /** How three events are taken apart one at a time. */
  lemma ThreeEvents(a: Event, b: Event, c: Event)
    ensures [c] + [] == [c] && [b] + [c] == [b, c] && [a] + [b, c] == [a, b, c]
  {
  }

  /** Before authorization a refused command is only counted. */
  lemma RefusedTurn(s: Session, e: Event)
    requires !s.authorized && Refused(e)
    ensures Step(s, e.input, e.oracle) == UnauthedTurn(s)
  {
  }

  /** Before authorization an AUTH goes to `AuthTurn`. */
  lemma AuthTurnOf(s: Session, e: Event)
    requires !s.authorized && Names(e.input, AUTH)
    ensures Step(s, e.input, e.oracle) == AuthTurn(s, e.oracle)
  {
    AuthIsNotQuit();
  }

  /** Before authorization an AUTH whose handler fails silently is counted and
      answered by the loop alone. */
  lemma FailedAuthTurn(s: Session, e: Event)
    requires !s.authorized && FailedAuth(e)
    ensures Step(s, e.input, e.oracle)
            == if s.authfails + 1 == MaxAuths
               then Turn(s.(authfails := MaxAuths), SendError(TooManyAuthFails), true, true)
               else Turn(s.(authfails := s.authfails + 1), SendError(InvalidAuth), false, true)
  {
    AuthTurnOf(s, e);
    assert [] + SendError(TooManyAuthFails) == SendError(TooManyAuthFails);
    assert [] + SendError(InvalidAuth) == SendError(InvalidAuth);
  }

  /** Three commands other than AUTH and QUIT on a new connection: two
      `NOVALIDAUTH` replies, then `GOAWAY` and the end of the connection. */
  lemma ThirdUnauthedCommandCloses(a: Event, b: Event, c: Event)
    requires Refused(a) && Refused(b) && Refused(c)
    ensures Feedable([a, b, c])
    ensures Run(Start(), [a, b, c])
            == Transcript(Session(false, 0, 3),
                          SendError(NoValidAuth) + (SendError(NoValidAuth) + SendError(TooManyUnauthed)),
                          true, 3)
  {
    ThreeEvents(a, b, c);
    var s1 := Session(false, 0, 1);
    var s2 := Session(false, 0, 2);
    RefusedTurn(s2, c);
    RunFirst(s2, c, []);
    RefusedTurn(s1, b);
    RunFirst(s1, b, [c]);
    RefusedTurn(Start(), a);
    RunFirst(Start(), a, [b, c]);
  }

  /** Three failed AUTHs on a new connection: two `INVALIDAUTH` replies, then
      `GOAWAY` and the end of the connection. */
  lemma ThirdFailedAuthCloses(a: Event, b: Event, c: Event)
    requires FailedAuth(a) && FailedAuth(b) && FailedAuth(c)
    ensures Feedable([a, b, c])
    ensures Run(Start(), [a, b, c])
            == Transcript(Session(false, 3, 0),
                          SendError(InvalidAuth) + (SendError(InvalidAuth) + SendError(TooManyAuthFails)),
                          true, 3)
  {
    ThreeEvents(a, b, c);
    var s1 := Session(false, 1, 0);
    var s2 := Session(false, 2, 0);
    FailedAuthTurn(s2, c);
    RunFirst(s2, c, []);
    FailedAuthTurn(s1, b);
    RunFirst(s1, b, [c]);
    FailedAuthTurn(Start(), a);
    RunFirst(Start(), a, [b, c]);
  }

  /** The two counters are kept apart: a refused command never touches the
      failed-AUTH count, and an AUTH never touches the refused-command count. */
  lemma CountersIndependent(s: Session, e: Event)
    requires !s.authorized && e.input.Frame?
    ensures var t := Step(s, e.input, e.oracle);
            && (Refused(e) ==> t.next.authfails == s.authfails)
            && (Names(e.input, AUTH) ==> t.next.unauthedCommands == s.unauthedCommands)
  {
    AuthIsNotQuit();
  }

  /** A refused command and a failed AUTH leave a new connection open, and an
      AUTH that then succeeds authorizes it. */
  lemma LoginAfterRefusals(u: Event, f: Event, ok: Event)
    requires Refused(u) && FailedAuth(f)
    requires Names(ok.input, AUTH) && ok.oracle.registered && !ok.oracle.handlerErr && ok.oracle.writeOk
    ensures Feedable([u, f, ok])
    ensures var r := Run(Start(), [u, f, ok]);
            !r.closed && r.last == Session(true, 1, 1)
  {
    ThreeEvents(u, f, ok);
    AuthTurnOf(Session(false, 1, 1), ok);
    RunFirst(Session(false, 1, 1), ok, []);
    FailedAuthTurn(Session(false, 0, 1), f);
    RunFirst(Session(false, 0, 1), f, [ok]);
    RefusedTurn(Start(), u);
    RunFirst(Start(), u, [f, ok]);
  }

  /** While the handler table has no AUTH entry, AUTH is answered with
      `AUTH Command not supported` any number of times and never counted. */
  lemma {:induction false} MissingAuthHandler(s: Session, events: seq<Event>)
    requires !s.authorized
    requires forall i :: 0 <= i < |events| ==> Names(events[i].input, AUTH) && !events[i].oracle.registered
    ensures Feedable(events)
    ensures Run(s, events) == Transcript(s, Repeat(SendError(AuthNotSupported), |events|), false, |events|)
    decreases |events|
  {
    if events != [] {
      var rest := events[1..];
      MissingAuthHandler(s, rest);
      AuthTurnOf(s, events[0]);
      RunFirst(s, events[0], rest);
      assert [events[0]] + rest == events;
    }
  }

  /** `n` copies of a reply, one after the other. */
  function Repeat(reply: seq<byte>, n: nat): (out: seq<byte>)
    ensures |out| == n * |reply|
  {
    if n == 0 then [] else reply + Repeat(reply, n - 1)
  }

  /** Until an AUTH succeeds, the connection stays unauthorized, whatever else
      comes in. */
  lemma {:induction false} NoLoginWithoutAuth(s: Session, events: seq<Event>)
    requires !s.authorized && Feedable(events)
    requires forall i :: 0 <= i < |events| && Names(events[i].input, AUTH) ==> events[i].oracle.handlerErr
    ensures !Run(s, events).last.authorized
    decreases |events|
  {
    if events != [] {
      var t := Step(s, events[0].input, events[0].oracle);
      if !t.closed {
        NoLoginWithoutAuth(t.next, events[1..]);
      }
    }
  }

  /** A new connection that never authorizes reads at most five counted
      requests: every command other than a failing AUTH with no handler or
      QUIT raises a counter, and the counters close it at three. */
  lemma {:induction false} UnauthorizedBudget(s: Session, events: seq<Event>)
    requires !s.authorized && Admissible(s) && Feedable(events)
    requires forall i :: 0 <= i < |events| ==> events[i].input.Frame? && !Names(events[i].input, QUIT)
    requires forall i :: 0 <= i < |events| ==> events[i].oracle.registered && events[i].oracle.handlerErr
    ensures Run(s, events).consumed <= (MaxAuths - s.authfails) + (MaxUnauthCommands - s.unauthedCommands) - 1
    decreases |events|
  {
    if events != [] {
      var t := Step(s, events[0].input, events[0].oracle);
      assert t.next.authfails + t.next.unauthedCommands == s.authfails + s.unauthedCommands + 1;
      if !t.closed {
        UnauthorizedBudget(t.next, events[1..]);
      }
    }
  }
}

=== FILE: sharding_commands.dfy ===
/** The local commands of the sharding proxy: `ADDSENTINEL` and
    `KNOWNSENTINELS` over the set of managing Sentinels. */
module ShardingCommands {
  import opened Bytes
  import opened Decimal
  import opened Protocol
  import opened Frames
  import opened Encoder
  import opened RoundTrip
  import opened Handlers
  import opened Constellation

  /** The address a command names: its first argument. */
  function AddressArg(c: Command): Address {
    ArgBytes(c.Get(1))
  }

  /** `addSentinel`: adds the address and replies `+OK`, whether or not it was
      already known. */
  function AddSentinel(set_: SentinelSet, c: Command): (r: Handled<SentinelSet>)
    ensures r.next.Contains(AddressArg(c))
    ensures forall a :: a != AddressArg(c) ==> (r.next.Contains(a) <==> set_.Contains(a))
    ensures r.out == SendOk() && !r.err
  {
    Handled(set_.Add(AddressArg(c)).0, SendOk(), false)
  }

  /** `knownSentinels`: every known address once, in map order, as an array of
      bulks; with no address the slice stays nil and the reply is the null
      array. The set is unchanged. */
  method KnownSentinels(set_: SentinelSet, c: Command) returns (r: Handled<SentinelSet>, listed: seq<Address>)
    ensures r.next == set_ && !r.err
    ensures IsListing(listed, set_.members)
    ensures set_.members == {} <==> r.out == NilArray
    ensures set_.members != {} ==> r.out == SendBulkStrings(Some(listed))
  {
    listed := Listing(set_);
    if listed == [] {
      r := Handled(set_, SendBulkStrings(None), false);
    } else {
      r := Handled(set_, SendBulkStrings(Some(listed)), false);
    }
  }

  /** Adding an address already known changes nothing but still replies `+OK`. */
  lemma AddKnownSentinel(set_: SentinelSet, c: Command)
    requires set_.Contains(AddressArg(c))
    ensures AddSentinel(set_, c) == Handled(set_, SendOk(), false)
  {
  }

  /** A `KNOWNSENTINELS` reply over at most `MaxNumArg` addresses, each short
      enough for a bulk, decodes as a request to exactly the listed addresses. */
  lemma KnownSentinelsDecode(listed: seq<Address>, members: set<Address>, rest: seq<byte>)
    requires IsListing(listed, members) && members != {}
    requires |listed| <= MaxNumArg
    requires forall a :: a in members ==> |a| <= MaxBulkSize
    ensures var s := SendBulkStrings(Some(listed)) + rest;
            && s[0] == STAR
            && Decode(s) == Frame(Command(AsBulks(listed)))
            && (forall i :: 0 <= i < |listed| ==> Command(AsBulks(listed)).Get(i) == Bulk(listed[i]))
            && (forall a :: a in members ==> Bulk(a) in AsBulks(listed))
  {
    forall a | a in members
      ensures Bulk(a) in AsBulks(listed)
    {
      var i :| 0 <= i < |listed| && listed[i] == a;
      assert AsBulks(listed)[i] == Bulk(a);
    }
    StringsRoundTrip(listed, rest);
  }
}
